=== FILE: README.md ===
# secplusstudy core, modelled in Dafny

secplusstudy is a Security+ flashcard study app. This project models its
sequential logic layer as pure Dafny functions over immutable values, and
proves properties of that model.

- **Progress store.** `ProgressRepository` keeps one record per card: correct and
  missed counters, a last-seen timestamp, a mastered flag and a needs-review
  flag. The whole map sits under one key of the browser's key/value store, and
  every operation is a read-modify-write of that map. Reads go through
  `AllProgressSchema`, so a corrupt map reads as empty. The store is a
  `map<string, Slot>`: a slot holds an already-decoded JSON value or is
  unreadable.
- **Preferences store.** `PreferencesRepository` keeps theme, UI size and
  last studied domain. Schema defaults apply field by field. Every save is a
  write followed by one `preferences-updated` notification, recorded in an
  effect log.
- **Schemas.** The zod schemas for progress, preferences, flashcards and
  domains are parse functions from a JSON value to an optional record. Each
  has an encoder and a round-trip lemma.
- **Study session.** `FlashcardViewer` is a state machine: a cursor, a
  flipped flag and a disclosure level in 1..3. `FlashcardFace` turns that
  state into a view, and `useKeyboard` dispatches keys to the machine's
  actions.
- **Card lists.**
  - `FlashcardService`: the catalog order 2, 4, 5 and the per-domain
    memoisation; the fetch is an oracle function from domain id to a
    response.
  - The "all" view's stable sort by domain priority 4, 5, 2, 3, 1.
  - The "flagged" view's needs-review filter.
  - The reference page's search, domain filter and grouping.
  - The profile page's statistics and two-step clear.

JSON numbers are `real`, because the schemas accept fractional numbers
(a flashcard with domain 2.5 passes `min(1).max(5)`). Timestamps come in as
a parameter `now`.

The viewer never clears the needs-review flag and `markAsReview` keeps
`mastered`, so a card can be both mastered and flagged. The model follows
the code, and `ProgressRepository.ReviewKeepsMastery` states
the overlap.

## Model

| member | source | states |
|---|---|---|
| ProgressTypes.ParseCount | secplusstudy/src/types/progress.ts:5-6 | a missing counter defaults to 0; a present one is accepted exactly when it is a number ≥ 0, and then that number is the result |
| ProgressTypes.ParseLastSeen | secplusstudy/src/types/progress.ts:7 | missing or null gives null and nothing else does; a string is accepted exactly when it has the ISO datetime shape, and is returned as itself; any other kind of value is rejected |
| ProgressTypes.ParseFlag | secplusstudy/src/types/progress.ts:8-9 | a missing flag defaults to false; a present one is accepted exactly when it is a boolean, and is returned as itself |
| ProgressTypes.ParseUserProgress | secplusstudy/src/types/progress.ts:3-10 | accepted exactly when the value is an object with a string `cardId` and each of the five other fields parses (missing ones defaulted); each field of the result is that field's own parse, and the record is valid |
| ProgressTypes.UserProgressRoundTrip | secplusstudy/src/types/progress.ts:3-10 | a valid record written and read back is unchanged |
| ProgressTypes.MissingCardIdRejected | secplusstudy/src/types/progress.ts:4 | an object without `cardId` is rejected whatever else it holds |
| ProgressTypes.ParseAllProgress | secplusstudy/src/types/progress.ts:12 | the map is accepted exactly when every entry is; keys are kept and each entry is its own parse |
| ProgressTypes.AllProgressRoundTrip | secplusstudy/src/types/progress.ts:12 | a map of valid records survives being written and read back |
| ProgressTypes.OneBadEntryRejectsAll | secplusstudy/src/types/progress.ts:12 | one invalid entry rejects the whole map |
| ProgressTypes.KeyNeedNotMatchCardId | secplusstudy/src/types/progress.ts:12 | a map key different from the record's `cardId` is accepted |
| ProgressRepository.GetAllProgress | secplusstudy/src/lib/repositories/ProgressRepository.ts:18-27 | an absent or schema-invalid value reads as the empty map; a present, truthy, schema-valid map is returned as parsed; what is read is always valid |
| ProgressRepository.GetProgress | secplusstudy/src/lib/repositories/ProgressRepository.ts:13-16 | a record is returned exactly when the card has an entry, and it is that entry |
| ProgressRepository.SaveProgress | secplusstudy/src/lib/repositories/ProgressRepository.ts:7-11 | only the progress key changes in the store |
| ProgressRepository.SaveReadBack | secplusstudy/src/lib/repositories/ProgressRepository.ts:7-11 | saving a valid record and reading back gives the old map with that entry replaced |
| ProgressRepository.SaveInvalidReadsEmpty | secplusstudy/src/lib/repositories/ProgressRepository.ts:7-11 | saving an invalid record makes the next read of the whole map empty |
| ProgressRepository.ClearAllProgress | secplusstudy/src/lib/repositories/ProgressRepository.ts:29-31 | afterwards the map reads empty, and other keys are untouched |
| ProgressRepository.Promote | secplusstudy/src/lib/repositories/ProgressRepository.ts:37-40 | mastered becomes old mastered or counter ≥ 3; promotion clears needs-review; the counters are kept |
| ProgressRepository.UpdateMasteryStatus | secplusstudy/src/lib/repositories/ProgressRepository.ts:33-43 | an unknown card leaves the store as it was; otherwise the card's record is the promoted one |
| ProgressRepository.MarkAsCorrectEffect | secplusstudy/src/lib/repositories/ProgressRepository.ts:45-61 | correct count +1, missed count kept, needs-review false, mastered exactly when it was or the count reaches 3, every other card unchanged |
| ProgressRepository.MarkAsMissedEffect | secplusstudy/src/lib/repositories/ProgressRepository.ts:63-79 | missed count +1, correct count kept, needs-review true, mastered false, every other card unchanged |
| ProgressRepository.MarkAsReviewEffect | secplusstudy/src/lib/repositories/ProgressRepository.ts:81-95 | needs-review true and the timestamp set, counters and mastered kept, every other card unchanged |
| ProgressRepository.MutationOnCorruptStoreKeepsOnlyCard | secplusstudy/src/lib/repositories/ProgressRepository.ts:18-27 | on an empty or corrupt map each mark persists a map holding only that card |
| ProgressRepository.MalformedTimestampLosesProgress | secplusstudy/src/lib/repositories/ProgressRepository.ts:63-95 | a timestamp the schema rejects makes the saved map unreadable, so everything reads as empty |
| ProgressRepository.ThreeCorrectMasters | secplusstudy/src/lib/repositories/ProgressRepository.ts:45-61 | three correct answers on a fresh card give 3 correct, 0 missed, mastered, not flagged |
| ProgressRepository.CorrectCorrectMissed | secplusstudy/src/lib/repositories/ProgressRepository.ts:63-79 | two correct then one miss give 2 correct, 1 missed, not mastered, flagged |
| ProgressRepository.ReviewKeepsMastery | secplusstudy/src/lib/repositories/ProgressRepository.ts:81-95 | flagging a mastered card keeps it mastered, so both flags hold together |
| ProgressRepository.UnknownCardHasNoRecord | secplusstudy/src/lib/repositories/ProgressRepository.ts:46-53 | an unknown card has no record and is treated as the zero record with its own id |
| PreferencesTypes.ParseTheme | secplusstudy/src/types/preferences.ts:4 | missing gives dark; only the strings "light" and "dark" are accepted |
| PreferencesTypes.ParseUiSize | secplusstudy/src/types/preferences.ts:5 | missing gives normal; only "cozy", "normal" and "large" are accepted |
| PreferencesTypes.ParseDomainChoice | secplusstudy/src/types/preferences.ts:6 | missing or null gives null; a number is accepted exactly when it lies in [1, 5], and is returned unchanged; any other kind of value is rejected |
| PreferencesTypes.PreferencesRoundTrip | secplusstudy/src/types/preferences.ts:3-7 | a record round-trips exactly when it is valid, and an invalid one is rejected |
| PreferencesTypes.EmptyObjectGivesDefaults | secplusstudy/src/types/preferences.ts:3-7 | an empty object parses to dark, normal, null |
| PreferencesTypes.ParsePreferences | secplusstudy/src/types/preferences.ts:3-7 | accepted exactly when the input is an object and each of the three fields parses under its own schema; each field of the result is that field's own parse, and the result is valid |
| PreferencesTypes.MissingFieldDefaultedIndividually | secplusstudy/src/types/preferences.ts:3-7 | in any accepted object every missing field holds its default, and removing any one field still parses, resetting only that field |
| PreferencesTypes.InvalidFieldRejectsRecord | secplusstudy/src/types/preferences.ts:3-7 | in any object, a field whose own schema rejects it (including a value of the wrong kind) rejects the whole record |
| PreferencesRepository.GetPreferences | secplusstudy/src/lib/repositories/PreferencesRepository.ts:12-23 | the result is always valid; an absent or invalid value gives the defaults |
| PreferencesRepository.SavePreferences | secplusstudy/src/lib/repositories/PreferencesRepository.ts:25-31 | one write, then one notification; the read-back is the record if valid, else the defaults; other keys untouched |
| PreferencesRepository.UpdateThemeReadBack | secplusstudy/src/lib/repositories/PreferencesRepository.ts:33-37 | the read-back has the new theme and the old size and domain |
| PreferencesRepository.UpdateUiSizeReadBack | secplusstudy/src/lib/repositories/PreferencesRepository.ts:39-43 | the read-back has the new size and the old theme and domain |
| PreferencesRepository.UpdateLastStudiedDomainReadBack | secplusstudy/src/lib/repositories/PreferencesRepository.ts:45-49 | a null or in-range domain reads back as given; any other value makes every field read as its default |
| PreferencesRepository.UpdateThemeIdempotent | secplusstudy/src/lib/repositories/PreferencesRepository.ts:33-37 | updating the theme twice stores the same as updating once |
| PreferencesRepository.UpdateUiSizeIdempotent | secplusstudy/src/lib/repositories/PreferencesRepository.ts:39-43 | updating the size twice stores the same as updating once |
| PreferencesRepository.UpdateLastStudiedDomainIdempotent | secplusstudy/src/lib/repositories/PreferencesRepository.ts:45-49 | for a null or in-range domain, updating twice stores the same as once |
| PreferencesRepository.OutOfRangeDomainUpdateNotIdempotent | secplusstudy/src/lib/repositories/PreferencesRepository.ts:45-49 | with an out-of-range domain the second update stores the defaults, not what the first stored |
| PreferencesRepository.CorruptPreferencesGiveDefaults | secplusstudy/src/lib/repositories/PreferencesRepository.ts:12-23 | an absent or unreadable value gives dark, normal, null |
| FlashcardTypes.ParseCardType | secplusstudy/src/types/flashcard.ts:19 | exactly the six type names are accepted, each to its own type |
| FlashcardTypes.ParseDifficulty | secplusstudy/src/types/flashcard.ts:10 | exactly "easy", "medium" and "hard" are accepted |
| FlashcardTypes.ParseBack | secplusstudy/src/types/flashcard.ts:3-7 | accepted exactly when all three tiers are strings, and the tiers are those strings |
| FlashcardTypes.ParseMetadata | secplusstudy/src/types/flashcard.ts:9-13 | accepted exactly when `difficulty` parses, `commonlyTested` is a boolean, and `relatedTerms` is missing or a list of strings; each field of the result is what its input parses to, and related terms are absent exactly when the field is missing |
| FlashcardTypes.ParseFlashcard | secplusstudy/src/types/flashcard.ts:15-23 | accepted exactly when every property is present and parses, with `domain` a number in [1, 5]; each field of the result is its input's own parse, and the card is valid |
| FlashcardTypes.FlashcardRoundTrip | secplusstudy/src/types/flashcard.ts:15-23 | a card round-trips exactly when its domain is in [1, 5] |
| FlashcardTypes.CommonlyTestedRequired | secplusstudy/src/types/flashcard.ts:11 | a card whose metadata lacks `commonlyTested` is rejected |
| FlashcardTypes.ParseDomain | secplusstudy/src/types/domain.ts:3-9 | accepted exactly when `id` is a number in [1, 5], `name` and `description` are strings, `examPercentage` is a number in [0, 100] and `sections` is a list of strings; each field of the result is its input's value |
| FlashcardTypes.DomainRoundTrip | secplusstudy/src/types/domain.ts:3-9 | a domain round-trips exactly when its id is in [1, 5] and its percentage in [0, 100] |
| FlashcardService.LoadCards | secplusstudy/src/lib/services/FlashcardService.ts:30-45 | a load succeeds only on an ok response holding an array of cards that all pass the schema; on an ok array the result is exactly that array's parse |
| FlashcardService.OneBadCardFailsDomain | secplusstudy/src/lib/services/FlashcardService.ts:38 | one invalid card fails the whole domain's load |
| FlashcardService.GetByDomain | secplusstudy/src/lib/services/FlashcardService.ts:25-46 | a cached domain returns its cards and leaves the cache; an uncached domain is memoised exactly when its load succeeds, and then the loaded cards are returned and stored; an uncached failure gives no cards and an unchanged cache |
| FlashcardService.MemoisedLoadIsReused | secplusstudy/src/lib/services/FlashcardService.ts:26-28 | for a cached domain, or one whose load succeeds, a later call returns the same cards and cache whatever the loader then does |
| FlashcardService.FailedLoadNotCached | secplusstudy/src/lib/services/FlashcardService.ts:32-34 | a failed load returns no cards and leaves the cache as it was |
| FlashcardService.GetAllOrder | secplusstudy/src/lib/services/FlashcardService.ts:13-23 | the catalog is domain 2's cards, then 4's, then 5's |
| FlashcardService.GetAllIgnoresDomainsOneAndThree | secplusstudy/src/lib/services/FlashcardService.ts:14 | the catalog does not depend on domains 1 and 3 at all |
| FlashcardService.FindById | secplusstudy/src/lib/services/FlashcardService.ts:50 | the first position holding the id, or none when no card has it |
| FlashcardService.GetById | secplusstudy/src/lib/services/FlashcardService.ts:48-51 | the first card in catalog order with that id, or null |
| FlashcardService.GetBySection | secplusstudy/src/lib/services/FlashcardService.ts:53-56 | exactly the domain's cards in that section, in order, each as many times as it occurs in the domain |
| FlashcardViewer.Initial | secplusstudy/src/components/organisms/FlashcardViewer/FlashcardViewer.tsx:23-25 | index 0, front face, level 1 |
| FlashcardViewer.HandleFlip | secplusstudy/src/components/organisms/FlashcardViewer/FlashcardViewer.tsx:32-37 | the face toggles; turning back to the front resets the level to 1 |
| FlashcardViewer.HandleNext | secplusstudy/src/components/organisms/FlashcardViewer/FlashcardViewer.tsx:39-47 | at the last card it completes and changes nothing; otherwise next card, front, level 1 |
| FlashcardViewer.HandlePrevious | secplusstudy/src/components/organisms/FlashcardViewer/FlashcardViewer.tsx:49-55 | at the first card nothing changes; otherwise previous card, front, level 1 |
| FlashcardViewer.HandleShowMore | secplusstudy/src/components/organisms/FlashcardViewer/FlashcardViewer.tsx:57-61 | the level rises by one up to 3, on either face |
| FlashcardViewer.HandleFlag | secplusstudy/src/components/organisms/FlashcardViewer/FlashcardViewer.tsx:63-67 | no view change; the current card is marked for review, or nothing happens when there is none |
| FlashcardViewer.Transition | secplusstudy/src/components/organisms/FlashcardViewer/FlashcardViewer.tsx:32-67 | completion, marking and exit happen exactly on their actions; only next and previous move the cursor, and moving resets face and level |
| FlashcardViewer.RunKeepsIndexInRange | secplusstudy/src/components/organisms/FlashcardViewer/FlashcardViewer.tsx:29-30 | with at least one card, any sequence of actions keeps the cursor on a card |
| FlashcardViewer.EmptyListNextLeavesRange | secplusstudy/src/components/organisms/FlashcardViewer/FlashcardViewer.tsx:30 | with no cards, next moves the cursor past the end |
| FlashcardViewer.CurrentFace | secplusstudy/src/components/organisms/FlashcardViewer/FlashcardViewer.tsx:28 | a face is shown exactly when the cursor is on a card: the back when flipped, with as many tiers as the level |
| FlashcardViewer.KeyAction | secplusstudy/src/components/organisms/FlashcardViewer/FlashcardViewer.tsx:69-75 | each key maps to its handler's action; R with meta or ctrl and unknown keys map to none |
| FlashcardViewer.FlagKeyFlagsCurrentCard | secplusstudy/src/components/organisms/FlashcardViewer/FlashcardViewer.tsx:63-75 | pressing R flags the card under the cursor in the store |
| FlashcardFace.Render | secplusstudy/src/components/molecules/FlashcardFace/FlashcardFace.tsx:23-121 | front shows the term only; back shows term, the "Domain N" badge number, section and `level` tiers starting with tier 1, and "Show More" exactly when not all are revealed |
| FlashcardFace.FrontIgnoresLevel | secplusstudy/src/components/molecules/FlashcardFace/FlashcardFace.tsx:29-42 | the front is the same view at every level |
| FlashcardFace.BackVisibility | secplusstudy/src/components/molecules/FlashcardFace/FlashcardFace.tsx:64-113 | tier 2 shows iff level ≥ 2, tier 3 iff level 3; "Show More" iff level < 3, "All details revealed" iff level 3 |
| FlashcardFace.ShowMoreLabels | secplusstudy/src/components/molecules/FlashcardFace/FlashcardFace.tsx:110 | the label counts the hidden sections, plural only for two |
| FlashcardFace.DefaultLevelIsOne | secplusstudy/src/components/molecules/FlashcardFace/FlashcardFace.tsx:26 | no level given renders as level 1, showing only tier 1 |
| Keyboard.HandleKeyDown | secplusstudy/src/lib/hooks/useKeyboard.ts:15-50 | disabled fires nothing; at most one handler fires, the key's own; unknown keys and `r` with meta or ctrl are neither handled nor prevented; any other bound key, when enabled, is prevented and fires its handler exactly when that handler was supplied |
| Keyboard.EachKeyFiresItsHandler | secplusstudy/src/lib/hooks/useKeyboard.ts:19-46 | every key fires exactly its own handler and prevents the default |
| Keyboard.FlagKeyModifiers | secplusstudy/src/lib/hooks/useKeyboard.ts:40-46 | r or R fires the flag handler iff neither meta nor ctrl is held |
| Keyboard.ModifiersIgnoredForOtherKeys | secplusstudy/src/lib/hooks/useKeyboard.ts:20-39 | modifiers do not affect the other five keys |
| Keyboard.MissingHandlerStillPreventsDefault | secplusstudy/src/lib/hooks/useKeyboard.ts:20-39 | a recognised key without a supplied handler is still default-prevented |
| StableSort.Sort | secplusstudy/src/app/study/all/page.tsx:49-54 | a permutation of the input, ordered by key |
| StableSort.SortStable | secplusstudy/src/app/study/all/page.tsx:49-54 | elements with equal keys keep their input order |
| StableSort.SortedStableUnique | secplusstudy/src/app/study/all/page.tsx:49-54 | two orders sorted by key that agree within every key are equal |
| StableSort.SortIsTheStableOrder | secplusstudy/src/app/study/all/page.tsx:49-54 | any order that is sorted and stable is the sort's result |
| StudyAll.IndexOf | secplusstudy/src/app/study/all/page.tsx:51-52 | the first position holding the value, or -1 exactly when it is absent |
| StudyAll.PriorityIsIndexOf | secplusstudy/src/app/study/all/page.tsx:50-52 | a card's key is its domain's position in [4, 5, 2, 3, 1] |
| StudyAll.SortByPriority | secplusstudy/src/app/study/all/page.tsx:49-54 | a permutation of the input, ordered by priority, each domain's cards in input order |
| StudyAll.FiveDomainsScenario | secplusstudy/src/app/study/all/page.tsx:50 | one card from each domain 1..5 comes out as 4, 5, 2, 3, 1 |
| StudyAll.StudyAllView | secplusstudy/src/app/study/all/page.tsx:56-80 | "No flashcards available" exactly for an empty list; otherwise a viewer over the sorted, non-empty list |
| StudyFlagged.FlaggedCards | secplusstudy/src/app/study/flagged/page.tsx:24-27 | an order-preserving subsequence; a card stays iff it has a record with needs-review set, and each flagged card keeps its multiplicity; unrecorded cards are dropped |
| StudyFlagged.FlagThenListed | secplusstudy/src/app/study/flagged/page.tsx:24-27 | a card flagged with R appears on the page |
| StudyFlagged.MissThenListed | secplusstudy/src/app/study/flagged/page.tsx:24-27 | a missed card appears on the page |
| StudyFlagged.CorrectThenUnlisted | secplusstudy/src/app/study/flagged/page.tsx:24-27 | a card answered correctly leaves the page |
| StudyFlagged.FlaggedView | secplusstudy/src/app/study/flagged/page.tsx:58-92 | "No Flagged Cards" exactly when no card is flagged; otherwise a viewer over at least one card |
| ReferencePage.LowerIdempotent | secplusstudy/src/app/reference/page.tsx:37-39 | lower-casing twice is lower-casing once |
| ReferencePage.IncludesIffWindow | secplusstudy/src/app/reference/page.tsx:37-39 | the substring test holds iff some window of the text spells the query |
| ReferencePage.IncludesEmpty | secplusstudy/src/app/reference/page.tsx:36 | every text includes the empty query |
| ReferencePage.FilteredFlashcards | secplusstudy/src/app/reference/page.tsx:34-44 | an order-preserving subsequence; a card stays iff it matches, with its multiplicity in the input; a selected domain is every result's domain |
| ReferencePage.EmptyQueryAllDomainsKeepsAll | secplusstudy/src/app/reference/page.tsx:35-41 | no query and no domain shows every card |
| ReferencePage.EmptyQueryIsDomainFilter | secplusstudy/src/app/reference/page.tsx:35-41 | no query with a domain selected shows exactly that domain's cards |
| ReferencePage.DeeperTiersNotSearched | secplusstudy/src/app/reference/page.tsx:36-39 | changing tiers 2 and 3 never changes whether a card matches |
| ReferencePage.SearchIgnoresQueryCase | secplusstudy/src/app/reference/page.tsx:37-39 | the query's letter case does not matter |
| ReferencePage.AddToGroup | secplusstudy/src/app/reference/page.tsx:48-57 | the card's domain and section entries exist afterwards and no other domain appears |
| ReferencePage.GroupIsExact | secplusstudy/src/app/reference/page.tsx:47-59 | every card has its group; each group lists exactly its domain and section's cards in order and is non-empty |
| ReferencePage.CardInOwnGroupOnly | secplusstudy/src/app/reference/page.tsx:47-59 | a card is in its own group and in no other |
| ReferencePage.GroupPresentIffCard | secplusstudy/src/app/reference/page.tsx:49-54 | a group exists iff some card has that domain and section |
| ReferencePage.Render | secplusstudy/src/app/reference/page.tsx:161-167 | "No flashcards found" shows exactly when no card matches, which is exactly when there are no groups |
| ProfilePage.Statistics | secplusstudy/src/app/profile/page.tsx:15-18 | the counts are the numbers of records, mastered records and flagged records; neither flag count exceeds the total |
| ProfilePage.FirstMissCountsOnce | secplusstudy/src/app/profile/page.tsx:15-18 | missing a new card adds one studied and one needing review, and no mastered |
| ProfilePage.OnClick | secplusstudy/src/app/profile/page.tsx:131-162 | "Clear All Progress" only opens, "Cancel" only closes; confirming while open clears and closes; from closed no click changes the store |
| ProfilePage.OpenChangeNeedsConfirm | secplusstudy/src/app/profile/page.tsx:145-152 | with the confirmation open, the store changes only if "Yes, Clear Everything" is clicked |
| ProfilePage.ClosedChangeNeedsTwoSteps | secplusstudy/src/app/profile/page.tsx:131-162 | from closed, the store changes only after "Clear All Progress" followed later by "Yes, Clear Everything" |
| ProfilePage.OpenThenConfirmClears | secplusstudy/src/app/profile/page.tsx:20-23 | opening then confirming empties progress, closes the panel, keeps other keys and shows zero everywhere |
| ProfilePage.OpenThenCancelRestores | secplusstudy/src/app/profile/page.tsx:153-159 | opening then cancelling leaves the page as it was |

## Left out

- Storage failures: `LocalStorageUtil` write errors, quota errors and its JSON text encoding are not modelled. A stored value is already-decoded JSON or unreadable. The server-side check for a missing `window` is not modelled either.
- `IsDateTime` checks the shape of `z.string().datetime()` only, not calendar ranges such as month 13.
- `Lower` lower-cases ASCII letters only; Unicode case mapping is not modelled.
- Prototype keys are not modelled. In JavaScript a progress id or section named `constructor` or `__proto__` reads an inherited value, and the grouping would then push onto a function. The model uses plain maps.
- Async loading, the loading and error branches of the pages, `console.error` and the fetch itself are not modelled. The fetch is an oracle function from domain id to a response.
- DomainService.ts is not part of this model. Neither are the React hooks that re-read after each call, `PreferencesProvider` and its DOM changes, the progress-bar width, animations, the `DOMAIN_NAMES` labels and presentational components.
- `Object.entries` render order of the groups is not modelled; groups are maps.
- Races between browser tabs writing the same key are not modelled.
- IEEE double rounding is not modelled: counters are JSON numbers, modelled as exact unbounded reals. In JavaScript a stored `timesCorrect` of 1.9999999999999998 becomes 3 after `markAsCorrect` and the card is mastered, while the model computes 2.9999999999999998 and does not master it; counters also stop growing at 2^53, and the model's do not.
- FlashcardViewer.Transition: the exit action is modelled as an effect; the router navigation it triggers is not.
- StudyAll.SortByPriority: `Array.prototype.sort` is specified by the stable insertion sort the model defines. `StableSort.SortIsTheStableOrder` shows any sorted, stable order equals it.

=== FILE: flashcard_face.dfy ===
/** `FlashcardFace`: what one side of a card shows at a given disclosure level. */
module FlashcardFace {
  import opened Values
  import opened FlashcardTypes

  datatype Side = FrontSide | BackSide

  /** The rendered content. The back shows the term, the "Domain N" badge
      with its section, the revealed answer tiers and either the "Show More" button (with its
      label) or the "All details revealed" note. */
  datatype FaceView =
    | FrontView(term: string, hint: string)
    | BackView(term: string, domain: real, section: string, tiers: seq<string>, showMore: Option<string>, allRevealed: bool)

  const RevealHint: string := "Press Space to reveal answer"

  /** The answer tiers in disclosure order. */
  function AllTiers(b: Back): seq<string> {
    [b.level1, b.level2, b.level3]
  }

  /** The tiers the back side shows: tier 1 always, tier 2 from level 2, tier 3 from level 3. */
  function VisibleTiers(b: Back, level: DisclosureLevel): (r: seq<string>)
    ensures r == AllTiers(b)[..level]
  {
    [b.level1] + (if level >= 2 then [b.level2] else []) + (if level >= 3 then [b.level3] else [])
  }

  function Digit(n: int): string
    requires 0 <= n <= 9
  {
    [(('0' as int) + n) as char]
  }

  /** The "Show More" label, counting the sections still hidden. */
  function ShowMoreLabel(level: DisclosureLevel): string
    requires level < 3
  {
    var remaining := 3 - level;
    "Show More (" + Digit(remaining) + " more section" + (if remaining > 1 then "s" else "") + ")"
  }

  /** The face for `side`; a missing level means level 1. */
  function Render(card: Flashcard, side: Side, disclosureLevel: Option<DisclosureLevel>): (r: FaceView)
    ensures side == FrontSide <==> r.FrontView?
    ensures r.FrontView? ==> r.term == card.front
    ensures r.BackView? ==> r.term == card.front && r.domain == card.domain && r.section == card.section
    ensures r.BackView? ==> |r.tiers| == disclosureLevel.GetOr(1) && r.tiers[0] == card.back.level1
    ensures r.BackView? ==> (r.showMore.Some? <==> !r.allRevealed)
  {
    var level := disclosureLevel.GetOr(1);
    match side
    case FrontSide => FrontView(card.front, RevealHint)
    case BackSide =>
      BackView(card.front, card.domain, card.section, VisibleTiers(card.back, level),
               if level < 3 then Some(ShowMoreLabel(level)) else None,
               level == 3)
  }

  /** The front shows only the term, whatever the level. */
  lemma FrontIgnoresLevel(card: Flashcard, a: Option<DisclosureLevel>, b: Option<DisclosureLevel>)
    ensures Render(card, FrontSide, a) == Render(card, FrontSide, b) == FrontView(card.front, RevealHint)
  {
  }

  /** On the back, tier 2 is visible iff the level is at least 2 and tier 3 iff
      it is 3; "Show More" is offered iff the level is below 3 and "All details
      revealed" iff it is 3. */
  lemma BackVisibility(card: Flashcard, level: DisclosureLevel)
    ensures var v := Render(card, BackSide, Some(level));
            && v.tiers[0] == card.back.level1
            && (|v.tiers| >= 2 <==> level >= 2)
            && (level >= 2 ==> v.tiers[1] == card.back.level2)
            && (|v.tiers| == 3 <==> level == 3)
            && (level == 3 ==> v.tiers[2] == card.back.level3)
            && (v.showMore.Some? <==> level < 3)
            && (v.allRevealed <==> level == 3)
  {
  }

  /** The label's count and its plural. */
  lemma ShowMoreLabels()
    ensures ShowMoreLabel(1) == "Show More (2 more sections)"
    ensures ShowMoreLabel(2) == "Show More (1 more section)"
  {
  }

  /** Without a level, the back shows exactly the first tier. */
  lemma DefaultLevelIsOne(card: Flashcard)
    ensures Render(card, BackSide, None) == Render(card, BackSide, Some(1))
    ensures Render(card, BackSide, None).tiers == [card.back.level1]
  {
  }
}

=== FILE: flashcard_service.dfy ===
/** `JsonFlashcardService`: per-domain loading with a memo of successful loads,
    and the catalogue-wide queries built on it. The network fetch is an oracle
    `Loader` from a domain id to what the request produced. */
module FlashcardService {
  import opened Values
  import opened Seqs
  import opened FlashcardTypes

  /** What fetching `/data/flashcards_domain<id>.json` produced: a non-OK
      status, a body that is not JSON, or the decoded body. */
  datatype Response = NotOk | Malformed | Ok(body: Json)

  type Loader = int -> Response

  /** The memo: successfully loaded domains only. */
  type Cache = map<int, seq<Flashcard>>

  /** Whether every item of the body passes `FlashcardSchema`. */
  function ParseCards(items: seq<Json>): (r: Option<seq<Flashcard>>)
    ensures r.Some? <==> forall i :: 0 <= i < |items| ==> ParseFlashcard(items[i]).Some?
    ensures r.Some? ==> |r.value| == |items|
                        && forall i :: 0 <= i < |items| ==> Some(r.value[i]) == ParseFlashcard(items[i])
  {
    if items == [] then Some([])
    else match ParseFlashcard(items[0])
      case None => None
      case Some(c) =>
        match ParseCards(items[1..])
        case None => None
        case Some(rest) => Some([c] + rest)
  }

  /** The cards a response yields: only an array whose every item validates
      succeeds; anything else (non-OK, unparsable, not an array, one bad card)
      is a failure. */
  function LoadCards(resp: Response): (r: Option<seq<Flashcard>>)
    ensures r.Some? ==> resp.Ok? && resp.body.JArray? && ParseCards(resp.body.items) == r
    ensures r.Some? ==> forall i :: 0 <= i < |r.value| ==> ValidCard(r.value[i])
    ensures resp.Ok? && resp.body.JArray? ==> r == ParseCards(resp.body.items)
  {
    match resp
    case Ok(JArray(items)) =>
      var r := ParseCards(items);
      assert r.Some? ==> forall i :: 0 <= i < |r.value| ==> Some(r.value[i]) == ParseFlashcard(items[i]);
      r
    case _ => None
  }

  predicate AllValid(cache: Cache) {
    forall d :: d in cache ==> forall i :: 0 <= i < |cache[d]| ==> ValidCard(cache[d][i])
  }

  /** The cache only ever gains entries; existing entries never change. */
  ghost predicate Extends(before: Cache, after: Cache) {
    forall d :: d in before ==> d in after && after[d] == before[d]
  }

  /** `getByDomain`: the memoised list when there is one; otherwise a load,
      memoised on success and turned into an empty, unmemoised list on failure.
      Returns the cards and the new cache. */
  function GetByDomain(cache: Cache, load: Loader, domainId: int): (r: (seq<Flashcard>, Cache))
    ensures Extends(cache, r.1)
    ensures r.1.Keys <= cache.Keys + {domainId}
    ensures domainId in r.1 ==> r.0 == r.1[domainId]
    ensures domainId !in r.1 ==> r.0 == []
    ensures AllValid(cache) ==> AllValid(r.1)
    ensures domainId in cache ==> r == (cache[domainId], cache)
    ensures domainId !in cache ==> (domainId in r.1 <==> LoadCards(load(domainId)).Some?)
    ensures domainId !in cache && LoadCards(load(domainId)).Some? ==>
              r == (LoadCards(load(domainId)).value, cache[domainId := LoadCards(load(domainId)).value])
  {
    if domainId in cache then (cache[domainId], cache)
    else match LoadCards(load(domainId))
      case Some(cards) => (cards, cache[domainId := cards])
      case None => ([], cache)
  }

  /** Once a domain is memoised, or has just loaded successfully, later calls
      return that list whatever the network would now answer, and leave the
      cache as it is. */
  lemma MemoisedLoadIsReused(cache: Cache, load: Loader, later: Loader, domainId: int)
    requires domainId in cache || LoadCards(load(domainId)).Some?
    ensures var (cards, c1) := GetByDomain(cache, load, domainId);
            GetByDomain(c1, later, domainId) == (cards, c1)
  {
  }

  /** A failed load yields no cards and memoises nothing, so the next call
      tries the network again. */
  lemma FailedLoadNotCached(cache: Cache, load: Loader, domainId: int)
    requires domainId !in cache && LoadCards(load(domainId)).None?
    ensures GetByDomain(cache, load, domainId) == ([], cache)
    ensures forall later: Loader :: GetByDomain(cache, later, domainId).0 == GetByDomain(map[], later, domainId).0
  {
  }

  /** One card failing validation fails the whole domain. */
  lemma OneBadCardFailsDomain(items: seq<Json>, i: int)
    requires 0 <= i < |items| && ParseFlashcard(items[i]).None?
    ensures LoadCards(Ok(JArray(items))) == None
  {
  }

  /** The domains `getAll` concatenates, in order. */
  const CatalogDomains: seq<int> := [2, 4, 5]

  /** Loads `domains` one after another, threading the cache, and concatenates. */
  function GetDomains(cache: Cache, load: Loader, domains: seq<int>): (r: (seq<Flashcard>, Cache))
    ensures Extends(cache, r.1)
    ensures forall d :: d in r.1 ==> d in cache || d in domains
    ensures AllValid(cache) ==> AllValid(r.1)
    decreases |domains|
  {
    if domains == [] then ([], cache)
    else
      var (first, c1) := GetByDomain(cache, load, domains[0]);
      var (rest, c2) := GetDomains(c1, load, domains[1..]);
      (first + rest, c2)
  }

  /** `getAll`. */
  function GetAll(cache: Cache, load: Loader): (r: (seq<Flashcard>, Cache))
    ensures Extends(cache, r.1)
    ensures r.1.Keys <= cache.Keys + {2, 4, 5}
  {
    GetDomains(cache, load, CatalogDomains)
  }

  /** What a single domain contributes, from the given cache and network. */
  function Contribution(cache: Cache, load: Loader, d: int): seq<Flashcard> {
    if d in cache then cache[d] else LoadCards(load(d)).GetOr([])
  }

  lemma ContributionOf(cache: Cache, load: Loader, d: int)
    ensures GetByDomain(cache, load, d).0 == Contribution(cache, load, d)
  {
  }

  lemma GetDomainsCons(cache: Cache, load: Loader, d: int, rest: seq<int>)
    ensures GetDomains(cache, load, [d] + rest).0
            == Contribution(cache, load, d) + GetDomains(GetByDomain(cache, load, d).1, load, rest).0
  {
    ContributionOf(cache, load, d);
    assert ([d] + rest)[0] == d && ([d] + rest)[1..] == rest;
  }

  lemma CatalogFirst(cache: Cache, load: Loader)
    ensures GetAll(cache, load).0
            == Contribution(cache, load, 2) + GetDomains(GetByDomain(cache, load, 2).1, load, [4, 5]).0
  {
    assert CatalogDomains == [2] + [4, 5];
    GetDomainsCons(cache, load, 2, [4, 5]);
  }

  lemma CatalogSecond(c1: Cache, load: Loader)
    ensures GetDomains(c1, load, [4, 5]).0
            == Contribution(c1, load, 4) + GetDomains(GetByDomain(c1, load, 4).1, load, [5]).0
  {
    assert [4, 5] == [4] + [5];
    GetDomainsCons(c1, load, 4, [5]);
  }

  lemma CatalogThird(c2: Cache, load: Loader)
    ensures GetDomains(c2, load, [5]).0 == Contribution(c2, load, 5)
  {
    assert [5] == [5] + [];
    GetDomainsCons(c2, load, 5, []);
  }

  /** `getAll` is domain 2's cards, then domain 4's, then domain 5's. */
  lemma GetAllOrder(cache: Cache, load: Loader)
    ensures GetAll(cache, load).0
            == Contribution(cache, load, 2) + Contribution(cache, load, 4) + Contribution(cache, load, 5)
  {
    var c1 := GetByDomain(cache, load, 2).1;
    CatalogFirst(cache, load);
    CatalogRest(c1, load);
    LaterContributionsStable(cache, load);
    ConcatThree(GetAll(cache, load).0, Contribution(cache, load, 2), GetDomains(c1, load, [4, 5]).0,
                Contribution(cache, load, 4), Contribution(cache, load, 5));
  }

  /** Domains 4 and 5, loaded in turn from a cache. */
  lemma CatalogRest(c1: Cache, load: Loader)
    ensures GetDomains(c1, load, [4, 5]).0
            == Contribution(c1, load, 4) + Contribution(GetByDomain(c1, load, 4).1, load, 5)
  {
    CatalogSecond(c1, load);
    CatalogThird(GetByDomain(c1, load, 4).1, load);
  }

  lemma ConcatThree(all: seq<Flashcard>, a: seq<Flashcard>, rest: seq<Flashcard>, b: seq<Flashcard>, c: seq<Flashcard>)
    requires all == a + rest && rest == b + c
    ensures all == a + b + c
  {
  }

  lemma LaterContributionsStable(cache: Cache, load: Loader)
    ensures var c1 := GetByDomain(cache, load, 2).1;
            && Contribution(c1, load, 4) == Contribution(cache, load, 4)
            && Contribution(GetByDomain(c1, load, 4).1, load, 5) == Contribution(cache, load, 5)
  {
    var c1 := GetByDomain(cache, load, 2).1;
    ContributionStable(cache, load, 2, 4);
    ContributionStable(cache, load, 2, 5);
    ContributionStable(c1, load, 4, 5);
  }

  /** Loading one domain does not change what another domain contributes. */
  lemma ContributionStable(cache: Cache, load: Loader, loaded: int, d: int)
    requires loaded != d
    ensures Contribution(GetByDomain(cache, load, loaded).1, load, d) == Contribution(cache, load, d)
  {
  }

  /** Domains 1 and 3 never contribute: neither their memo entries nor what
      the network answers for them changes the result. */
  lemma GetAllIgnoresDomainsOneAndThree(cache: Cache, load: Loader, other: Loader)
    requires load(2) == other(2) && load(4) == other(4) && load(5) == other(5)
    ensures GetAll(cache, load).0 == GetAll(cache - {1, 3}, other).0
  {
    GetAllOrder(cache, load);
    GetAllOrder(cache - {1, 3}, other);
    ContributionIgnores(cache, load, other, 2);
    ContributionIgnores(cache, load, other, 4);
    ContributionIgnores(cache, load, other, 5);
  }

  lemma ContributionIgnores(cache: Cache, load: Loader, other: Loader, d: int)
    requires d != 1 && d != 3 && load(d) == other(d)
    ensures Contribution(cache, load, d) == Contribution(cache - {1, 3}, other, d)
  {
  }

  /** The index of the first card with the given id. */
  function FindById(cards: seq<Flashcard>, id: string): (r: Option<nat>)
    ensures r.Some? ==> r.value < |cards| && cards[r.value].id == id
                        && forall j :: 0 <= j < r.value ==> cards[j].id != id
    ensures r.None? ==> forall j :: 0 <= j < |cards| ==> cards[j].id != id
  {
    if cards == [] then None
    else if cards[0].id == id then Some(0)
    else match FindById(cards[1..], id)
      case None => None
      case Some(k) => Some(k + 1)
  }

  /** `getById`: the first card of `getAll` with that id, or None. */
  function GetById(cache: Cache, load: Loader, id: string): (r: (Option<Flashcard>, Cache))
    ensures var all := GetAll(cache, load).0;
            && (r.0.None? <==> forall j :: 0 <= j < |all| ==> all[j].id != id)
            && (r.0.Some? ==> exists k :: 0 <= k < |all| && all[k] == r.0.value
                                          && forall j :: 0 <= j < k ==> all[j].id != id)
    ensures r.0.Some? ==> r.0.value.id == id
    ensures r.1 == GetAll(cache, load).1
  {
    var (all, c) := GetAll(cache, load);
    match FindById(all, id)
    case None => (None, c)
    case Some(k) => (Some(all[k]), c)
  }

  /** `getBySection`: the domain's cards whose section matches, in order. */
  function GetBySection(cache: Cache, load: Loader, domainId: int, section: string): (r: (seq<Flashcard>, Cache))
    ensures r.1 == GetByDomain(cache, load, domainId).1
    ensures IsSubsequence(r.0, GetByDomain(cache, load, domainId).0)
    ensures forall i :: 0 <= i < |r.0| ==> r.0[i].section == section
    ensures var all := GetByDomain(cache, load, domainId).0;
            forall i :: 0 <= i < |all| && all[i].section == section ==> all[i] in r.0
    ensures var all := GetByDomain(cache, load, domainId).0;
            forall c :: multiset(r.0)[c] == if c.section == section then multiset(all)[c] else 0
  {
    var (cards, c) := GetByDomain(cache, load, domainId);
    FilterIsSubsequence(cards, (card: Flashcard) => card.section == section);
    FilterMembers(cards, (card: Flashcard) => card.section == section);
    FilterMultiplicity(cards, (card: Flashcard) => card.section == section);
    (Filter(cards, (card: Flashcard) => card.section == section), c)
  }
}

=== FILE: flashcard_types.dfy ===
/** `FlashcardSchema` and `DomainSchema`: the read-only study content and the
    validation it passes when loaded. */
module FlashcardTypes {
  import opened Values

  datatype CardType = Acronym | Concept | Tool | Process | Attack | Standard
  datatype Difficulty = Easy | Medium | Hard

  /** The three answer tiers revealed progressively. */
  datatype Back = Back(level1: string, level2: string, level3: string)

  datatype Metadata = Metadata(difficulty: Difficulty, commonlyTested: bool, relatedTerms: Option<seq<string>>)

  datatype Flashcard = Flashcard(
    id: string,
    domain: real,
    section: string,
    cardType: CardType,
    front: string,
    back: Back,
    metadata: Metadata)

  /** How many answer tiers are shown: exactly 1, 2 or 3. */
  type DisclosureLevel = l: int | 1 <= l <= 3 witness 1

  /** The bound `z.number().min(1).max(5)` puts on a domain id. */
  predicate InDomainRange(n: real) {
    1.0 <= n <= 5.0
  }

  predicate ValidCard(c: Flashcard) {
    InDomainRange(c.domain)
  }

  function CardTypeName(t: CardType): string {
    match t
    case Acronym => "acronym"
    case Concept => "concept"
    case Tool => "tool"
    case Process => "process"
    case Attack => "attack"
    case Standard => "standard"
  }

  function DifficultyName(d: Difficulty): string {
    match d
    case Easy => "easy"
    case Medium => "medium"
    case Hard => "hard"
  }

  /** `z.enum([...])` over the six card types. */
  function ParseCardType(j: Json): (r: Option<CardType>)
    ensures r.Some? ==> j == JString(CardTypeName(r.value))
    ensures forall t: CardType :: j == JString(CardTypeName(t)) ==> r == Some(t)
  {
    match j
    case JString(s) =>
      if s == "acronym" then Some(Acronym)
      else if s == "concept" then Some(Concept)
      else if s == "tool" then Some(Tool)
      else if s == "process" then Some(Process)
      else if s == "attack" then Some(Attack)
      else if s == "standard" then Some(Standard)
      else None
    case _ => None
  }

  /** `z.enum(['easy', 'medium', 'hard'])`. */
  function ParseDifficulty(j: Json): (r: Option<Difficulty>)
    ensures r.Some? ==> j == JString(DifficultyName(r.value))
    ensures forall d: Difficulty :: j == JString(DifficultyName(d)) ==> r == Some(d)
  {
    match j
    case JString(s) =>
      if s == "easy" then Some(Easy)
      else if s == "medium" then Some(Medium)
      else if s == "hard" then Some(Hard)
      else None
    case _ => None
  }

  /** A required string property. */
  function RequiredString(o: map<string, Json>, name: string): (r: Option<string>)
    ensures r.Some? <==> name in o && o[name].JString?
    ensures r.Some? ==> o[name] == JString(r.value)
  {
    if name in o && o[name].JString? then Some(o[name].s) else None
  }

  /** `FlashcardBackSchema`: three required string tiers. */
  function ParseBack(j: Json): (r: Option<Back>)
    ensures r.Some? <==> j.JObject? && (forall name :: name in ["level1", "level2", "level3"] ==>
                                          name in j.fields && j.fields[name].JString?)
    ensures r.Some? ==> && j.fields["level1"] == JString(r.value.level1)
                        && j.fields["level2"] == JString(r.value.level2)
                        && j.fields["level3"] == JString(r.value.level3)
  {
    match j
    case JObject(o) =>
      var l1 := RequiredString(o, "level1");
      var l2 := RequiredString(o, "level2");
      var l3 := RequiredString(o, "level3");
      if l1.Some? && l2.Some? && l3.Some? then Some(Back(l1.value, l2.value, l3.value)) else None
    case _ => None
  }

  /** `FlashcardMetadataSchema`: `relatedTerms` may be missing but, if present,
      must be a list of strings. */
  function ParseMetadata(j: Json): (r: Option<Metadata>)
    ensures r.Some? ==> j.JObject? && "commonlyTested" in j.fields && j.fields["commonlyTested"] == JBool(r.value.commonlyTested)
    ensures r.Some? ==> (r.value.relatedTerms.None? <==> "relatedTerms" !in j.fields)
    ensures r.Some? <==> && j.JObject?
                         && "difficulty" in j.fields && ParseDifficulty(j.fields["difficulty"]).Some?
                         && "commonlyTested" in j.fields && j.fields["commonlyTested"].JBool?
                         && ("relatedTerms" in j.fields ==>
                               j.fields["relatedTerms"].JArray? && ParseStrings(j.fields["relatedTerms"].items).Some?)
    ensures r.Some? ==> && Some(r.value.difficulty) == ParseDifficulty(j.fields["difficulty"])
                        && (r.value.relatedTerms.Some? ==>
                              Some(r.value.relatedTerms.value) == ParseStrings(j.fields["relatedTerms"].items))
  {
    match j
    case JObject(o) =>
      var d := if "difficulty" in o then ParseDifficulty(o["difficulty"]) else None;
      var ct := if "commonlyTested" in o && o["commonlyTested"].JBool? then Some(o["commonlyTested"].b) else None;
      var rt: Option<Option<seq<string>>> :=
        if "relatedTerms" !in o then Some(None)
        else if o["relatedTerms"].JArray? then
          (match ParseStrings(o["relatedTerms"].items) case Some(ts) => Some(Some(ts)) case None => None)
        else None;
      if d.Some? && ct.Some? && rt.Some? then Some(Metadata(d.value, ct.value, rt.value)) else None
    case _ => None
  }

  /** `FlashcardSchema.parse`: every property is required; `domain` must lie in [1, 5]. */
  function ParseFlashcard(j: Json): (r: Option<Flashcard>)
    ensures r.Some? ==> ValidCard(r.value)
    ensures r.Some? ==> j.JObject? && "domain" in j.fields && j.fields["domain"] == JNum(r.value.domain)
    ensures r.Some? <==> && j.JObject?
                         && RequiredString(j.fields, "id").Some?
                         && "domain" in j.fields && j.fields["domain"].JNum? && InDomainRange(j.fields["domain"].n)
                         && RequiredString(j.fields, "section").Some?
                         && "type" in j.fields && ParseCardType(j.fields["type"]).Some?
                         && RequiredString(j.fields, "front").Some?
                         && "back" in j.fields && ParseBack(j.fields["back"]).Some?
                         && "metadata" in j.fields && ParseMetadata(j.fields["metadata"]).Some?
    ensures r.Some? ==> && j.fields["id"] == JString(r.value.id)
                        && j.fields["section"] == JString(r.value.section)
                        && j.fields["front"] == JString(r.value.front)
                        && Some(r.value.cardType) == ParseCardType(j.fields["type"])
                        && Some(r.value.back) == ParseBack(j.fields["back"])
                        && Some(r.value.metadata) == ParseMetadata(j.fields["metadata"])
  {
    match j
    case JObject(o) =>
      var id := RequiredString(o, "id");
      var dom := if "domain" in o && o["domain"].JNum? && InDomainRange(o["domain"].n) then Some(o["domain"].n) else None;
      var sec := RequiredString(o, "section");
      var ty := if "type" in o then ParseCardType(o["type"]) else None;
      var fr := RequiredString(o, "front");
      var bk := if "back" in o then ParseBack(o["back"]) else None;
      var md := if "metadata" in o then ParseMetadata(o["metadata"]) else None;
      if id.Some? && dom.Some? && sec.Some? && ty.Some? && fr.Some? && bk.Some? && md.Some?
      then Some(Flashcard(id.value, dom.value, sec.value, ty.value, fr.value, bk.value, md.value))
      else None
    case _ => None
  }

  function EncodeBack(b: Back): Json {
    JObject(map["level1" := JString(b.level1), "level2" := JString(b.level2), "level3" := JString(b.level3)])
  }

  function EncodeMetadata(m: Metadata): Json {
    var base := map["difficulty" := JString(DifficultyName(m.difficulty)), "commonlyTested" := JBool(m.commonlyTested)];
    match m.relatedTerms
    case None => JObject(base)
    case Some(ts) => JObject(base["relatedTerms" := JArray(EncodeStrings(ts))])
  }

  /** The JSON object a content file holds for a card. */
  function EncodeFlashcard(c: Flashcard): Json {
    JObject(map[
      "id" := JString(c.id),
      "domain" := JNum(c.domain),
      "section" := JString(c.section),
      "type" := JString(CardTypeName(c.cardType)),
      "front" := JString(c.front),
      "back" := EncodeBack(c.back),
      "metadata" := EncodeMetadata(c.metadata)])
  }

  lemma MetadataRoundTrip(m: Metadata)
    ensures ParseMetadata(EncodeMetadata(m)) == Some(m)
  {
    if m.relatedTerms.Some? {
      StringsRoundTrip(m.relatedTerms.value);
    }
  }

  /** A card is accepted back from its encoding exactly when its domain is in range. */
  lemma FlashcardRoundTrip(c: Flashcard)
    ensures ValidCard(c) <==> ParseFlashcard(EncodeFlashcard(c)) == Some(c)
  {
    EncodedFlashcardFields(c);
    MetadataRoundTrip(c.metadata);
    assert ParseBack(EncodeBack(c.back)) == Some(c.back);
    if ValidCard(c) {
      ValidCardRoundTrip(c);
    }
  }

  /** The properties of a card's encoding, each holding its field. */
  lemma EncodedFlashcardFields(c: Flashcard)
    ensures var o := EncodeFlashcard(c).fields;
            && "id" in o && o["id"] == JString(c.id)
            && "domain" in o && o["domain"] == JNum(c.domain)
            && "section" in o && o["section"] == JString(c.section)
            && "type" in o && o["type"] == JString(CardTypeName(c.cardType))
            && "front" in o && o["front"] == JString(c.front)
            && "back" in o && o["back"] == EncodeBack(c.back)
            && "metadata" in o && o["metadata"] == EncodeMetadata(c.metadata)
  {
  }

  lemma ValidCardRoundTrip(c: Flashcard)
    requires ValidCard(c)
    ensures ParseFlashcard(EncodeFlashcard(c)) == Some(c)
  {
    EncodedFlashcardFields(c);
    MetadataRoundTrip(c.metadata);
    assert ParseBack(EncodeBack(c.back)) == Some(c.back);
    var r := ParseFlashcard(EncodeFlashcard(c));
    assert r.Some?;
  }

  /** A card missing `metadata.commonlyTested` is rejected: it has no default. */
  lemma CommonlyTestedRequired(c: Flashcard)
    ensures var j := EncodeFlashcard(c);
            var md := EncodeMetadata(c.metadata).fields - {"commonlyTested"};
            ParseFlashcard(JObject(j.fields["metadata" := JObject(md)])) == None
  {
  }

  /** `DomainSchema`: an exam domain with its sections. */
  datatype Domain = Domain(id: real, name: string, examPercentage: real, description: string, sections: seq<string>)

  predicate ValidDomain(d: Domain) {
    InDomainRange(d.id) && 0.0 <= d.examPercentage <= 100.0
  }

  /** `DomainSchema.parse`. */
  function ParseDomain(j: Json): (r: Option<Domain>)
    ensures r.Some? ==> ValidDomain(r.value)
    ensures r.Some? ==> j.JObject? && "sections" in j.fields && j.fields["sections"] == JArray(EncodeStrings(r.value.sections))
    ensures r.Some? <==> && j.JObject?
                         && "id" in j.fields && j.fields["id"].JNum? && InDomainRange(j.fields["id"].n)
                         && RequiredString(j.fields, "name").Some?
                         && "examPercentage" in j.fields && j.fields["examPercentage"].JNum?
                         && 0.0 <= j.fields["examPercentage"].n <= 100.0
                         && RequiredString(j.fields, "description").Some?
                         && "sections" in j.fields && j.fields["sections"].JArray?
                         && ParseStrings(j.fields["sections"].items).Some?
    ensures r.Some? ==> && j.fields["id"] == JNum(r.value.id)
                        && j.fields["name"] == JString(r.value.name)
                        && j.fields["examPercentage"] == JNum(r.value.examPercentage)
                        && j.fields["description"] == JString(r.value.description)
                        && Some(r.value.sections) == ParseStrings(j.fields["sections"].items)
  {
    match j
    case JObject(o) =>
      var id := if "id" in o && o["id"].JNum? && InDomainRange(o["id"].n) then Some(o["id"].n) else None;
      var name := RequiredString(o, "name");
      var pct := if "examPercentage" in o && o["examPercentage"].JNum? && 0.0 <= o["examPercentage"].n <= 100.0
                 then Some(o["examPercentage"].n) else None;
      var desc := RequiredString(o, "description");
      var secs := if "sections" in o && o["sections"].JArray? then ParseStrings(o["sections"].items) else None;
      if id.Some? && name.Some? && pct.Some? && desc.Some? && secs.Some?
      then
        assert o["sections"].items == EncodeStrings(secs.value);
        Some(Domain(id.value, name.value, pct.value, desc.value, secs.value))
      else None
    case _ => None
  }

  function EncodeDomain(d: Domain): Json {
    JObject(map[
      "id" := JNum(d.id),
      "name" := JString(d.name),
      "examPercentage" := JNum(d.examPercentage),
      "description" := JString(d.description),
      "sections" := JArray(EncodeStrings(d.sections))])
  }

  /** A domain is accepted back from its encoding exactly when its id and
      percentage are in range. */
  lemma DomainRoundTrip(d: Domain)
    ensures ValidDomain(d) <==> ParseDomain(EncodeDomain(d)) == Some(d)
  {
    StringsRoundTrip(d.sections);
  }
}

=== FILE: flashcard_viewer.dfy ===
/** `FlashcardViewer`: the per-session view state over a list of cards and its
    transitions, and how keys and flagging drive it. */
module FlashcardViewer {
  import opened Values
  import opened FlashcardTypes
  import opened FlashcardFace
  import Keyboard
  import Storage
  import ProgressTypes
  import ProgressRepository

  /** The cursor, whether the back is showing, and how many tiers are revealed. */
  datatype ViewState = ViewState(index: nat, flipped: bool, level: DisclosureLevel)

  datatype Action = Flip | Next | Previous | ShowMore | FlagCard | ExitSession

  /** What a transition asks of the outside world. */
  datatype Effect = NoEffect | Complete | MarkReview(cardId: string) | Exit

  datatype Step = Step(state: ViewState, effect: Effect)

  /** The state a new session starts in. */
  function Initial(): (r: ViewState)
    ensures r.index == 0 && !r.flipped && r.level == 1
  {
    ViewState(0, false, 1)
  }

  /** `isLast`: compares with `length - 1`, so it is never true for an empty list. */
  predicate IsLast(cards: seq<Flashcard>, s: ViewState) {
    s.index == |cards| - 1
  }

  /** `handleFlip`: toggles the face; turning back to the front resets the level. */
  function HandleFlip(s: ViewState): (r: ViewState)
    ensures r.flipped == !s.flipped && r.index == s.index
    ensures r.level == (if s.flipped then 1 else s.level)
  {
    ViewState(s.index, !s.flipped, if s.flipped then 1 else s.level)
  }

  /** `handleNext`: completion at the last card, otherwise the next card's front. */
  function HandleNext(cards: seq<Flashcard>, s: ViewState): (r: Step)
    ensures IsLast(cards, s) ==> r == Step(s, Complete)
    ensures !IsLast(cards, s) ==> r == Step(ViewState(s.index + 1, false, 1), NoEffect)
  {
    if IsLast(cards, s) then Step(s, Complete)
    else Step(ViewState(s.index + 1, false, 1), NoEffect)
  }

  /** `handlePrevious`: nothing at the first card, otherwise the previous card's front. */
  function HandlePrevious(s: ViewState): (r: ViewState)
    ensures s.index == 0 ==> r == s
    ensures s.index > 0 ==> r == ViewState(s.index - 1, false, 1)
  {
    if s.index == 0 then s else ViewState(s.index - 1, false, 1)
  }

  /** `handleShowMore`: one more tier while fewer than three show, on either face. */
  function HandleShowMore(s: ViewState): (r: ViewState)
    ensures r.index == s.index && r.flipped == s.flipped
    ensures r.level == if s.level < 3 then s.level + 1 else 3
  {
    if s.level < 3 then s.(level := s.level + 1) else s
  }

  /** `handleFlag`: asks for the current card to be flagged, if there is one. */
  function HandleFlag(cards: seq<Flashcard>, s: ViewState): (r: Step)
    ensures r.state == s
    ensures s.index < |cards| ==> r.effect == MarkReview(cards[s.index].id)
    ensures s.index >= |cards| ==> r.effect == NoEffect
  {
    if s.index < |cards| then Step(s, MarkReview(cards[s.index].id)) else Step(s, NoEffect)
  }

  /** One transition. */
  function Transition(cards: seq<Flashcard>, s: ViewState, a: Action): (r: Step)
    ensures r.effect == Complete <==> a == Next && IsLast(cards, s)
    ensures r.effect.MarkReview? <==> a == FlagCard && s.index < |cards|
    ensures r.effect == Exit <==> a == ExitSession
    ensures a != Next && a != Previous ==> r.state.index == s.index
    ensures r.state.index != s.index ==> !r.state.flipped && r.state.level == 1
  {
    match a
    case Flip => Step(HandleFlip(s), NoEffect)
    case Next => HandleNext(cards, s)
    case Previous => Step(HandlePrevious(s), NoEffect)
    case ShowMore => Step(HandleShowMore(s), NoEffect)
    case FlagCard => HandleFlag(cards, s)
    case ExitSession => Step(s, Exit)
  }

  /** The state after a sequence of actions. */
  function Run(cards: seq<Flashcard>, s: ViewState, actions: seq<Action>): ViewState
    decreases |actions|
  {
    if actions == [] then s else Run(cards, Transition(cards, s, actions[0]).state, actions[1..])
  }

  /** The cursor stays on a card: for a non-empty list no transition leaves
      `0 <= index <= N - 1`. */
  lemma TransitionKeepsIndexInRange(cards: seq<Flashcard>, s: ViewState, a: Action)
    requires |cards| >= 1 && s.index < |cards|
    ensures Transition(cards, s, a).state.index < |cards|
  {
  }

  /** Every sequence of transitions from the initial state keeps the cursor on a card. */
  lemma {:induction false} RunKeepsIndexInRange(cards: seq<Flashcard>, s: ViewState, actions: seq<Action>)
    requires |cards| >= 1 && s.index < |cards|
    ensures Run(cards, s, actions).index < |cards|
    decreases |actions|
  {
    if actions != [] {
      TransitionKeepsIndexInRange(cards, s, actions[0]);
      RunKeepsIndexInRange(cards, Transition(cards, s, actions[0]).state, actions[1..]);
    }
  }

  /** With no cards the bound fails: "next" from the start moves past the end,
      because the last-card test compares with -1. */
  lemma EmptyListNextLeavesRange()
    ensures Transition([], Initial(), Next) == Step(ViewState(1, false, 1), NoEffect)
  {
  }

  /** Flagging changes no view state and names the current card. */
  lemma FlagNamesCurrentCard(cards: seq<Flashcard>, s: ViewState)
    requires s.index < |cards|
    ensures Transition(cards, s, FlagCard) == Step(s, MarkReview(cards[s.index].id))
  {
  }

  /** Show-more on the front still raises the level, which the back then shows on flip. */
  lemma ShowMoreOnFrontCarriesToBack()
    ensures HandleFlip(HandleShowMore(Initial())) == ViewState(0, true, 2)
  {
  }

  /** The face the viewer renders for the current card. */
  function CurrentFace(cards: seq<Flashcard>, s: ViewState): (r: Option<FaceView>)
    ensures r.Some? <==> s.index < |cards|
    ensures r.Some? ==> (r.value.BackView? <==> s.flipped)
    ensures r.Some? && r.value.BackView? ==> |r.value.tiers| == s.level
  {
    if s.index < |cards| then
      Some(Render(cards[s.index], if s.flipped then BackSide else FrontSide, Some(s.level)))
    else None
  }

  /** The keyboard bindings: each handler the viewer supplies, as an action.
      `onEscape` is the caller's exit callback. */
  function ActionOf(h: Keyboard.Handler): Action {
    match h
    case OnSpace => Flip
    case OnArrowLeft => Previous
    case OnArrowRight => Next
    case OnArrowUp => ShowMore
    case OnEscape => ExitSession
    case OnR => FlagCard
  }

  /** The action a key press triggers in a session, if any. */
  function KeyAction(e: Keyboard.KeyEvent): (r: Option<Action>)
    ensures r.Some? ==> Keyboard.HandlerFor(e.key).Some? && r.value == ActionOf(Keyboard.HandlerFor(e.key).value)
    ensures r == None <==> Keyboard.HandlerFor(e.key).None? || ((e.key == "r" || e.key == "R") && (e.metaKey || e.ctrlKey))
  {
    var d := Keyboard.HandleKeyDown(Keyboard.AllHandlers, true, e);
    match d.fired
    case None => None
    case Some(h) => Some(ActionOf(h))
  }

  /** A session together with the stored progress it flags into. */
  datatype Session = Session(view: ViewState, store: Storage.Store)

  /** One action applied to the session; a flag request runs `markAsReview`
      with the clock's `now`. Completion and exit go to the caller. */
  function SessionStep(cards: seq<Flashcard>, se: Session, a: Action, now: string): (r: Session)
    ensures r.view == Transition(cards, se.view, a).state
    ensures a != FlagCard ==> r.store == se.store
  {
    var step := Transition(cards, se.view, a);
    match step.effect
    case MarkReview(id) => Session(step.state, ProgressRepository.MarkAsReview(se.store, id, now))
    case _ => Session(step.state, se.store)
  }

  /** Pressing R flags the card under the cursor for review, leaves its
      counters and mastery alone, and leaves the view as it was. */
  lemma FlagKeyFlagsCurrentCard(cards: seq<Flashcard>, se: Session, e: Keyboard.KeyEvent, now: string)
    requires se.view.index < |cards|
    requires (e.key == "r" || e.key == "R") && !e.metaKey && !e.ctrlKey
    requires ProgressTypes.IsDateTime(now)
    ensures KeyAction(e) == Some(FlagCard)
    ensures var r := SessionStep(cards, se, FlagCard, now);
            var id := cards[se.view.index].id;
            var before := ProgressRepository.ProgressOrZero(se.store, id);
            var after := ProgressRepository.GetAllProgress(r.store);
            && r.view == se.view
            && id in after && after[id].needsReview
            && after[id].timesCorrect == before.timesCorrect
            && after[id].timesMissed == before.timesMissed
            && after[id].mastered == before.mastered
  {
    RKeyIsFlag(e);
    var id := cards[se.view.index].id;
    FlagStep(cards, se, now);
    ProgressRepository.MarkAsReviewEffect(se.store, id, now);
  }

  lemma RKeyIsFlag(e: Keyboard.KeyEvent)
    requires (e.key == "r" || e.key == "R") && !e.metaKey && !e.ctrlKey
    ensures KeyAction(e) == Some(FlagCard)
  {
  }

  /** A flag request on a card keeps the view and runs `markAsReview` on it. */
  lemma FlagStep(cards: seq<Flashcard>, se: Session, now: string)
    requires se.view.index < |cards|
    ensures SessionStep(cards, se, FlagCard, now)
            == Session(se.view, ProgressRepository.MarkAsReview(se.store, cards[se.view.index].id, now))
  {
    assert Transition(cards, se.view, FlagCard) == Step(se.view, MarkReview(cards[se.view.index].id));
  }
}

=== FILE: keyboard.dfy ===
/** `useKeyboard`: which handler a key press fires during a study session. */
module Keyboard {
  import opened Values

  datatype Handler = OnSpace | OnArrowLeft | OnArrowRight | OnArrowUp | OnEscape | OnR

  /** The parts of a `KeyboardEvent` the dispatch looks at, plus shift and alt,
      which it ignores. */
  datatype KeyEvent = KeyEvent(key: string, metaKey: bool, ctrlKey: bool, shiftKey: bool, altKey: bool)

  /** The handler actually invoked (None when no handler fires, including when
      the matching handler was not supplied) and whether the browser default
      was suppressed. */
  datatype Dispatch = Dispatch(fired: Option<Handler>, defaultPrevented: bool)

  /** The `switch` over `event.key`: the handler slot a key selects, before the
      modifier check for `r`. */
  function HandlerFor(key: string): Option<Handler> {
    if key == " " then Some(OnSpace)
    else if key == "ArrowLeft" then Some(OnArrowLeft)
    else if key == "ArrowRight" then Some(OnArrowRight)
    else if key == "ArrowUp" then Some(OnArrowUp)
    else if key == "Escape" then Some(OnEscape)
    else if key == "r" || key == "R" then Some(OnR)
    else None
  }

  /** The key each handler is bound to (lower-case `r` for the flag handler). */
  function KeyOf(h: Handler): string {
    match h
    case OnSpace => " "
    case OnArrowLeft => "ArrowLeft"
    case OnArrowRight => "ArrowRight"
    case OnArrowUp => "ArrowUp"
    case OnEscape => "Escape"
    case OnR => "r"
  }

  /** `handleKeyDown`. `supplied` is the set of handlers the caller passed. */
  function HandleKeyDown(supplied: set<Handler>, enabled: bool, e: KeyEvent): (r: Dispatch)
    ensures !enabled ==> r == Dispatch(None, false)
    ensures r.fired.Some? ==> r.defaultPrevented && r.fired.value in supplied
    ensures r.fired.Some? ==> HandlerFor(e.key) == r.fired
    ensures HandlerFor(e.key).None? ==> r == Dispatch(None, false)
    ensures (&& enabled && HandlerFor(e.key).Some?
             && !(HandlerFor(e.key) == Some(OnR) && (e.metaKey || e.ctrlKey)))
            ==> r.defaultPrevented && (r.fired.Some? <==> HandlerFor(e.key).value in supplied)
    ensures (HandlerFor(e.key) == Some(OnR) && (e.metaKey || e.ctrlKey)) ==> r == Dispatch(None, false)
  {
    if !enabled then Dispatch(None, false)
    else match HandlerFor(e.key)
      case None => Dispatch(None, false)
      case Some(h) =>
        if h == OnR && (e.metaKey || e.ctrlKey) then Dispatch(None, false)
        else Dispatch(if h in supplied then Some(h) else None, true)
  }

  const AllHandlers: set<Handler> := {OnSpace, OnArrowLeft, OnArrowRight, OnArrowUp, OnEscape, OnR}

  /** Each handler's own key, pressed without modifiers, fires exactly that handler. */
  lemma {:induction false} EachKeyFiresItsHandler(h: Handler, shift: bool, alt: bool)
    ensures HandleKeyDown(AllHandlers, true, KeyEvent(KeyOf(h), false, false, shift, alt)) == Dispatch(Some(h), true)
  {
    match h
    case OnSpace =>
    case OnArrowLeft =>
    case OnArrowRight =>
    case OnArrowUp =>
    case OnEscape =>
    case OnR =>
  }

  /** The flag key fires its handler exactly when neither meta nor ctrl is
      held; shift and alt make no difference, and `R` works like `r`. */
  lemma FlagKeyModifiers(e: KeyEvent)
    requires e.key == "r" || e.key == "R"
    ensures HandleKeyDown(AllHandlers, true, e).fired == Some(OnR) <==> !e.metaKey && !e.ctrlKey
    ensures HandleKeyDown(AllHandlers, true, e).defaultPrevented <==> !e.metaKey && !e.ctrlKey
  {
  }

  /** The non-flag keys fire their handler whatever modifiers are held. */
  lemma ModifiersIgnoredForOtherKeys(e: KeyEvent, h: Handler)
    requires h != OnR && e.key == KeyOf(h)
    ensures HandleKeyDown(AllHandlers, true, e) == Dispatch(Some(h), true)
  {
  }

  /** A missing handler is skipped, but the key's default is still suppressed. */
  lemma MissingHandlerStillPreventsDefault(supplied: set<Handler>, e: KeyEvent, h: Handler)
    requires h != OnR && e.key == KeyOf(h) && h !in supplied
    ensures HandleKeyDown(supplied, true, e) == Dispatch(None, true)
  {
  }
}

=== FILE: preferences_repository.dfy ===
/** `PreferencesRepository`: read-modify-write of the single preferences record,
    with one `preferences-updated` notification after every save. */
module PreferencesRepository {
  import opened Values
  import opened Storage
  import opened PreferencesTypes

  const PreferencesKey: string := "secplus_preferences"

  /** An observable side effect, in the order it happens. */
  datatype Effect = StorageWrite(key: string) | PreferencesUpdated

  /** The browser as the repository sees it: the store and the effects so far. */
  datatype Env = Env(store: Store, effects: seq<Effect>)

  /** `getPreferences`: the stored record, or the defaults when it is missing,
      unreadable, falsy or rejected by the schema. Never fails. */
  function GetPreferences(s: Store): (r: UserPreferences)
    ensures Valid(r)
    ensures GetItem(s, PreferencesKey).None? ==> r == Defaults()
    ensures GetItem(s, PreferencesKey).Some? && ParsePreferences(GetItem(s, PreferencesKey).value).None? ==> r == Defaults()
    ensures GetItem(s, PreferencesKey).Some? && ParsePreferences(GetItem(s, PreferencesKey).value).Some?
            ==> r == ParsePreferences(GetItem(s, PreferencesKey).value).value
  {
    var data := GetItem(s, PreferencesKey);
    if data.None? || IsFalsy(data.value) then Defaults()
    else match ParsePreferences(data.value)
      case Some(p) => p
      case None => Defaults()
  }

  /** `savePreferences`: writes the record, then raises exactly one notification. */
  function SavePreferences(e: Env, p: UserPreferences): (r: Env)
    ensures r.effects == e.effects + [StorageWrite(PreferencesKey), PreferencesUpdated]
    ensures GetPreferences(r.store) == (if Valid(p) then p else Defaults())
    ensures forall k :: k != PreferencesKey ==> (k in r.store <==> k in e.store) && (k in e.store ==> r.store[k] == e.store[k])
  {
    PreferencesRoundTrip(p);
    Env(SetItem(e.store, PreferencesKey, EncodePreferences(p)), e.effects + [StorageWrite(PreferencesKey), PreferencesUpdated])
  }

  /** `updateTheme`. */
  function UpdateTheme(e: Env, t: Theme): (r: Env)
    ensures r.effects == e.effects + [StorageWrite(PreferencesKey), PreferencesUpdated]
  {
    SavePreferences(e, GetPreferences(e.store).(theme := t))
  }

  /** `updateUiSize`. */
  function UpdateUiSize(e: Env, u: UiSize): (r: Env)
    ensures r.effects == e.effects + [StorageWrite(PreferencesKey), PreferencesUpdated]
  {
    SavePreferences(e, GetPreferences(e.store).(uiSize := u))
  }

  /** `updateLastStudiedDomain`: stores the value without validating it. */
  function UpdateLastStudiedDomain(e: Env, d: Option<real>): (r: Env)
    ensures r.effects == e.effects + [StorageWrite(PreferencesKey), PreferencesUpdated]
  {
    SavePreferences(e, GetPreferences(e.store).(lastStudiedDomain := d))
  }

  /** Reading the theme back gives the new theme; the other fields are unchanged. */
  lemma UpdateThemeReadBack(e: Env, t: Theme)
    ensures var before := GetPreferences(e.store);
            GetPreferences(UpdateTheme(e, t).store) == before.(theme := t)
  {
  }

  /** Reading the size back gives the new size; the other fields are unchanged. */
  lemma UpdateUiSizeReadBack(e: Env, u: UiSize)
    ensures var before := GetPreferences(e.store);
            GetPreferences(UpdateUiSize(e, u).store) == before.(uiSize := u)
  {
  }

  /** An in-range domain (or null) reads back with the other fields unchanged;
      an out-of-range one makes the stored record invalid, so every field
      reads back as its default. */
  lemma UpdateLastStudiedDomainReadBack(e: Env, d: Option<real>)
    ensures var before := GetPreferences(e.store);
            GetPreferences(UpdateLastStudiedDomain(e, d).store)
            == if ValidDomainChoice(d) then before.(lastStudiedDomain := d) else Defaults()
  {
  }

  /** Applying a theme update twice stores the same record as applying it once. */
  lemma UpdateThemeIdempotent(e: Env, t: Theme)
    ensures UpdateTheme(UpdateTheme(e, t), t).store == UpdateTheme(e, t).store
  {
  }

  /** Applying a size update twice stores the same record as applying it once. */
  lemma UpdateUiSizeIdempotent(e: Env, u: UiSize)
    ensures UpdateUiSize(UpdateUiSize(e, u), u).store == UpdateUiSize(e, u).store
  {
  }

  /** Applying an in-range domain update twice stores the same record as once. */
  lemma UpdateLastStudiedDomainIdempotent(e: Env, d: Option<real>)
    requires ValidDomainChoice(d)
    ensures UpdateLastStudiedDomain(UpdateLastStudiedDomain(e, d), d).store == UpdateLastStudiedDomain(e, d).store
  {
  }

  /** With an out-of-range domain the update is not idempotent: the second call
      starts from the defaults, so a light theme written before is lost. */
  lemma OutOfRangeDomainUpdateNotIdempotent()
    ensures var e := Env(map[PreferencesKey := Decoded(EncodePreferences(UserPreferences(Light, Large, None)))], []);
            UpdateLastStudiedDomain(UpdateLastStudiedDomain(e, Some(9.0)), Some(9.0)).store
            != UpdateLastStudiedDomain(e, Some(9.0)).store
  {
    var e := Env(map[PreferencesKey := Decoded(EncodePreferences(UserPreferences(Light, Large, None)))], []);
    var once := UpdateLastStudiedDomain(e, Some(9.0)).store;
    var twice := UpdateLastStudiedDomain(UpdateLastStudiedDomain(e, Some(9.0)), Some(9.0)).store;
    assert GetPreferences(e.store) == UserPreferences(Light, Large, None);
    assert once[PreferencesKey] == Decoded(EncodePreferences(UserPreferences(Light, Large, Some(9.0))));
    assert twice[PreferencesKey] == Decoded(EncodePreferences(UserPreferences(Dark, Normal, Some(9.0))));
    assert EncodePreferences(UserPreferences(Light, Large, Some(9.0))).fields["theme"] == JString("light");
  }

  /** A corrupt or missing stored record reads as the documented defaults. */
  lemma CorruptPreferencesGiveDefaults(s: Store)
    requires PreferencesKey !in s || s[PreferencesKey] == Unreadable
    ensures GetPreferences(s) == UserPreferences(Dark, Normal, None)
  {
  }
}

=== FILE: preferences_types.dfy ===
/** `UserPreferencesSchema`: the display settings record, its enums, bounds and defaults. */
module PreferencesTypes {
  import opened Values

  datatype Theme = Light | Dark
  datatype UiSize = Cozy | Normal | Large

  /** The record as the program holds it. `lastStudiedDomain` is any number or
      null here, since the update path stores whatever it is given. */
  datatype UserPreferences = UserPreferences(theme: Theme, uiSize: UiSize, lastStudiedDomain: Option<real>)

  /** The bound the schema puts on `lastStudiedDomain`. */
  predicate ValidDomainChoice(d: Option<real>) {
    d.None? || 1.0 <= d.value <= 5.0
  }

  predicate Valid(p: UserPreferences) {
    ValidDomainChoice(p.lastStudiedDomain)
  }

  /** What `UserPreferencesSchema.parse({})` returns. */
  function Defaults(): (r: UserPreferences)
    ensures Valid(r)
  {
    UserPreferences(Dark, Normal, None)
  }

  function ThemeName(t: Theme): string {
    match t
    case Light => "light"
    case Dark => "dark"
  }

  function UiSizeName(u: UiSize): string {
    match u
    case Cozy => "cozy"
    case Normal => "normal"
    case Large => "large"
  }

  /** `z.enum(['light', 'dark']).default('dark')`. */
  function ParseTheme(f: Option<Json>): (r: Option<Theme>)
    ensures f.None? ==> r == Some(Dark)
    ensures r.Some? && f.Some? ==> f.value == JString(ThemeName(r.value))
    ensures forall t: Theme :: f == Some(JString(ThemeName(t))) ==> r == Some(t)
  {
    match f
    case None => Some(Dark)
    case Some(JString(s)) =>
      if s == "light" then Some(Light) else if s == "dark" then Some(Dark) else None
    case Some(_) => None
  }

  /** `z.enum(['cozy', 'normal', 'large']).default('normal')`. */
  function ParseUiSize(f: Option<Json>): (r: Option<UiSize>)
    ensures f.None? ==> r == Some(Normal)
    ensures r.Some? && f.Some? ==> f.value == JString(UiSizeName(r.value))
    ensures forall u: UiSize :: f == Some(JString(UiSizeName(u))) ==> r == Some(u)
  {
    match f
    case None => Some(Normal)
    case Some(JString(s)) =>
      if s == "cozy" then Some(Cozy)
      else if s == "normal" then Some(Normal)
      else if s == "large" then Some(Large)
      else None
    case Some(_) => None
  }

  /** `z.number().min(1).max(5).nullable().default(null)`. */
  function ParseDomainChoice(f: Option<Json>): (r: Option<Option<real>>)
    ensures f.None? || f == Some(JNull) ==> r == Some(None)
    ensures r.Some? ==> ValidDomainChoice(r.value)
    ensures forall n: real :: f == Some(JNum(n)) ==> (r.Some? <==> 1.0 <= n <= 5.0)
    ensures r.Some? && r.value.Some? ==> f == Some(JNum(r.value.value))
    ensures f.Some? && !f.value.JNull? && !f.value.JNum? ==> r.None?
  {
    match f
    case None => Some(None)
    case Some(JNull) => Some(None)
    case Some(JNum(n)) => if 1.0 <= n <= 5.0 then Some(Some(n)) else None
    case Some(_) => None
  }

  /** `UserPreferencesSchema.parse`: each missing field is defaulted on its
      own, while any present but invalid field rejects the whole record. */
  function ParsePreferences(j: Json): (r: Option<UserPreferences>)
    ensures r.Some? ==> Valid(r.value) && j.JObject?
    ensures r.Some? <==> && j.JObject?
                         && ParseTheme(Field(j.fields, "theme")).Some?
                         && ParseUiSize(Field(j.fields, "uiSize")).Some?
                         && ParseDomainChoice(Field(j.fields, "lastStudiedDomain")).Some?
    ensures r.Some? ==> && Some(r.value.theme) == ParseTheme(Field(j.fields, "theme"))
                        && Some(r.value.uiSize) == ParseUiSize(Field(j.fields, "uiSize"))
                        && Some(r.value.lastStudiedDomain) == ParseDomainChoice(Field(j.fields, "lastStudiedDomain"))
  {
    match j
    case JObject(o) =>
      var t := ParseTheme(Field(o, "theme"));
      var u := ParseUiSize(Field(o, "uiSize"));
      var d := ParseDomainChoice(Field(o, "lastStudiedDomain"));
      if t.Some? && u.Some? && d.Some? then Some(UserPreferences(t.value, u.value, d.value)) else None
    case _ => None
  }

  function EncodePreferences(p: UserPreferences): (r: Json)
    ensures r.JObject? && !IsFalsy(r)
  {
    JObject(map[
      "theme" := JString(ThemeName(p.theme)),
      "uiSize" := JString(UiSizeName(p.uiSize)),
      "lastStudiedDomain" := (match p.lastStudiedDomain case None => JNull case Some(n) => JNum(n))])
  }

  /** A record survives being written and read back exactly when it is valid. */
  lemma PreferencesRoundTrip(p: UserPreferences)
    ensures Valid(p) <==> ParsePreferences(EncodePreferences(p)) == Some(p)
    ensures !Valid(p) ==> ParsePreferences(EncodePreferences(p)) == None
  {
  }

  /** An empty object parses to the defaults. */
  lemma EmptyObjectGivesDefaults()
    ensures ParsePreferences(JObject(map[])) == Some(Defaults())
  {
  }

  /** Each missing field is defaulted on its own: in an accepted object every
      absent field holds its default, and dropping any one field from it
      still parses, with only that field reset to its default. */
  lemma MissingFieldDefaultedIndividually(o: map<string, Json>)
    requires ParsePreferences(JObject(o)).Some?
    ensures var p := ParsePreferences(JObject(o)).value;
            && ("theme" !in o ==> p.theme == Dark)
            && ("uiSize" !in o ==> p.uiSize == Normal)
            && ("lastStudiedDomain" !in o ==> p.lastStudiedDomain == None)
    ensures var p := ParsePreferences(JObject(o)).value;
            && ParsePreferences(JObject(o - {"theme"})) == Some(p.(theme := Dark))
            && ParsePreferences(JObject(o - {"uiSize"})) == Some(p.(uiSize := Normal))
            && ParsePreferences(JObject(o - {"lastStudiedDomain"})) == Some(p.(lastStudiedDomain := None))
  {
    var p := ParsePreferences(JObject(o)).value;
    assert Field(o - {"theme"}, "uiSize") == Field(o, "uiSize");
    assert Field(o - {"theme"}, "lastStudiedDomain") == Field(o, "lastStudiedDomain");
    assert Field(o - {"uiSize"}, "theme") == Field(o, "theme");
    assert Field(o - {"uiSize"}, "lastStudiedDomain") == Field(o, "lastStudiedDomain");
    assert Field(o - {"lastStudiedDomain"}, "theme") == Field(o, "theme");
    assert Field(o - {"lastStudiedDomain"}, "uiSize") == Field(o, "uiSize");
  }

  /** Any present field that fails its own schema rejects the whole record,
      whatever the other fields hold; in particular a value of the wrong kind
      (a non-string theme or size, a domain that is neither null nor a number). */
  lemma InvalidFieldRejectsRecord(o: map<string, Json>)
    ensures ParseTheme(Field(o, "theme")).None? ==> ParsePreferences(JObject(o)) == None
    ensures ParseUiSize(Field(o, "uiSize")).None? ==> ParsePreferences(JObject(o)) == None
    ensures ParseDomainChoice(Field(o, "lastStudiedDomain")).None? ==> ParsePreferences(JObject(o)) == None
    ensures "theme" in o && !o["theme"].JString? ==> ParsePreferences(JObject(o)) == None
    ensures "uiSize" in o && !o["uiSize"].JString? ==> ParsePreferences(JObject(o)) == None
    ensures ("lastStudiedDomain" in o && !o["lastStudiedDomain"].JNull? && !o["lastStudiedDomain"].JNum?)
            ==> ParsePreferences(JObject(o)) == None
  {
  }
}

=== FILE: profile_page.dfy ===
/** The profile page's study statistics and its two-step "clear all progress"
    confirmation. */
module ProfilePage {
  import opened Values
  import opened Storage
  import opened ProgressTypes
  import opened ProgressRepository

  predicate IsMastered(p: UserProgress) {
    p.mastered
  }

  predicate IsFlaggedRecord(p: UserProgress) {
    p.needsReview
  }

  /** The ids among `ks` whose record satisfies `f`. */
  function IdsWhere(m: AllProgress, ks: set<string>, f: UserProgress -> bool): (r: set<string>)
    ensures r <= ks
  {
    set k | k in ks && k in m && f(m[k])
  }

  /** The three figures the page shows. */
  datatype Stats = Stats(totalStudied: nat, masteredCount: nat, needsReviewCount: nat)

  /** The figures as counts of records: all of them, the mastered ones and
      the ones flagged for review. */
  function StatsOf(m: AllProgress): Stats {
    Stats(|m.Keys|, |IdsWhere(m, m.Keys, IsMastered)|, |IdsWhere(m, m.Keys, IsFlaggedRecord)|)
  }

  /** Taking one more id into account adds it to the selection exactly when
      its record satisfies `f`. */
  lemma IdsWhereAdd(m: AllProgress, ks: set<string>, k: string, f: UserProgress -> bool)
    requires k in m && k !in ks
    ensures IdsWhere(m, ks + {k}, f) == if f(m[k]) then IdsWhere(m, ks, f) + {k} else IdsWhere(m, ks, f)
    ensures k !in IdsWhere(m, ks, f)
  {
  }

  lemma {:induction false} SubsetNoLarger(a: set<string>, b: set<string>)
    requires a <= b
    ensures |a| <= |b|
    decreases |b|
  {
    if a != {} {
      var x :| x in a;
      SubsetNoLarger(a - {x}, b - {x});
    }
  }

  /** `Object.values(allProgress)` counted in one pass: every record once, the
      mastered and the flagged ones among them. The counts agree with
      `StatsOf`, and neither flag count exceeds the number studied. */
  method Statistics(m: AllProgress) returns (r: Stats)
    ensures r == StatsOf(m)
    ensures r.masteredCount <= r.totalStudied && r.needsReviewCount <= r.totalStudied
  {
    var remaining := m.Keys;
    ghost var seen: set<string> := {};
    var total, mastered, review := 0, 0, 0;
    while remaining != {}
      invariant seen !! remaining && seen + remaining == m.Keys
      invariant total == |seen|
      invariant mastered == |IdsWhere(m, seen, IsMastered)|
      invariant review == |IdsWhere(m, seen, IsFlaggedRecord)|
      decreases |remaining|
    {
      var k :| k in remaining;
      CountStep(m, seen, k);
      if m[k].mastered {
        mastered := mastered + 1;
      }
      if m[k].needsReview {
        review := review + 1;
      }
      total := total + 1;
      seen := seen + {k};
      remaining := remaining - {k};
    }
    assert seen == m.Keys;
    SubsetNoLarger(IdsWhere(m, seen, IsMastered), seen);
    SubsetNoLarger(IdsWhere(m, seen, IsFlaggedRecord), seen);
    r := Stats(total, mastered, review);
  }

  /** Counting one more id: it adds one to the total, and one to each
      selection its record belongs to. */
  lemma CountStep(m: AllProgress, seen: set<string>, k: string)
    requires k in m && k !in seen
    ensures |seen + {k}| == |seen| + 1
    ensures |IdsWhere(m, seen + {k}, IsMastered)| == |IdsWhere(m, seen, IsMastered)| + if m[k].mastered then 1 else 0
    ensures |IdsWhere(m, seen + {k}, IsFlaggedRecord)| == |IdsWhere(m, seen, IsFlaggedRecord)| + if m[k].needsReview then 1 else 0
  {
    IdsWhereAdd(m, seen, k, IsMastered);
    IdsWhereAdd(m, seen, k, IsFlaggedRecord);
  }

  /** Adding a record for a new id keeps the other ids' selection and adds the
      new id when its record satisfies `f`. */
  lemma IdsWhereNewEntry(m: AllProgress, m': AllProgress, id: string, f: UserProgress -> bool)
    requires id !in m && m'.Keys == m.Keys + {id}
    requires forall k :: k in m ==> m'[k] == m[k]
    ensures IdsWhere(m', m'.Keys, f) == if f(m'[id]) then IdsWhere(m, m.Keys, f) + {id} else IdsWhere(m, m.Keys, f)
  {
  }

  /** Studying a card for the first time adds one to the cards studied, and a
      miss also adds one to the cards needing review. */
  lemma FirstMissCountsOnce(s: Store, cardId: string, now: string)
    requires IsDateTime(now) && cardId !in GetAllProgress(s)
    ensures var before := StatsOf(GetAllProgress(s));
            var after := StatsOf(GetAllProgress(MarkAsMissed(s, cardId, now)));
            && after.totalStudied == before.totalStudied + 1
            && after.needsReviewCount == before.needsReviewCount + 1
            && after.masteredCount == before.masteredCount
  {
    MarkAsMissedEffect(s, cardId, now);
    NewFlaggedEntryStats(GetAllProgress(s), GetAllProgress(MarkAsMissed(s, cardId, now)), cardId);
  }

  /** A new id whose record is flagged and not mastered adds one studied and
      one flagged card. */
  lemma NewFlaggedEntryStats(m: AllProgress, m': AllProgress, id: string)
    requires id !in m && OthersUnchanged(m, m', id)
    requires m'[id].needsReview && !m'[id].mastered
    ensures StatsOf(m').totalStudied == StatsOf(m).totalStudied + 1
    ensures StatsOf(m').needsReviewCount == StatsOf(m).needsReviewCount + 1
    ensures StatsOf(m').masteredCount == StatsOf(m).masteredCount
  {
    assert m'.Keys == m.Keys + {id};
    assert IsFlaggedRecord(m'[id]) && !IsMastered(m'[id]);
    IdsWhereNewEntry(m, m', id, IsMastered);
    IdsWhereNewEntry(m, m', id, IsFlaggedRecord);
  }

  /** The page's state: whether the confirmation is open, and the store
      behind `useProgress`. */
  datatype Profile = Profile(showConfirmClear: bool, store: Store)

  /** The three buttons of the data-management panel. */
  datatype Click = ClearAllProgressButton | YesClearEverything | Cancel

  /** "Clear All Progress" is rendered only while the confirmation is closed,
      "Yes, Clear Everything" and "Cancel" only while it is open; a click on a
      button that is not shown cannot happen and changes nothing. */
  function OnClick(p: Profile, c: Click): (r: Profile)
    ensures c == ClearAllProgressButton ==> r.store == p.store && r.showConfirmClear
    ensures c == Cancel ==> r.store == p.store && !r.showConfirmClear
    ensures c == YesClearEverything && p.showConfirmClear ==>
              !r.showConfirmClear && GetAllProgress(r.store) == map[]
    ensures !p.showConfirmClear ==> r.store == p.store
  {
    match c
    case ClearAllProgressButton => if p.showConfirmClear then p else p.(showConfirmClear := true)
    case YesClearEverything =>
      if p.showConfirmClear then Profile(false, ClearAllProgress(p.store)) else p
    case Cancel => if p.showConfirmClear then p.(showConfirmClear := false) else p
  }

  function Clicks(p: Profile, cs: seq<Click>): Profile
    decreases |cs|
  {
    if cs == [] then p else Clicks(OnClick(p, cs[0]), cs[1..])
  }

  /** The statistics the page shows: those of the stored progress. */
  function Shown(p: Profile): (r: Stats)
    ensures r.totalStudied == |GetAllProgress(p.store)|
  {
    StatsOf(GetAllProgress(p.store))
  }

  /** From an open confirmation, the store changes only if "Yes, Clear
      Everything" is clicked at some point. */
  lemma {:induction false} OpenChangeNeedsConfirm(p: Profile, cs: seq<Click>)
    requires p.showConfirmClear
    requires Clicks(p, cs).store != p.store
    ensures exists j :: 0 <= j < |cs| && cs[j] == YesClearEverything
    decreases |cs|
  {
    var q := OnClick(p, cs[0]);
    if cs[0] != YesClearEverything {
      if q.showConfirmClear {
        OpenChangeNeedsConfirm(q, cs[1..]);
      } else {
        ClosedChangeNeedsTwoSteps(q, cs[1..]);
      }
      var j :| 0 <= j < |cs[1..]| && cs[1..][j] == YesClearEverything;
      assert cs[j + 1] == YesClearEverything;
    }
  }

  /** From a closed confirmation, the store changes only after "Clear All
      Progress" and then "Yes, Clear Everything": no single click clears. */
  lemma {:induction false} ClosedChangeNeedsTwoSteps(p: Profile, cs: seq<Click>)
    requires !p.showConfirmClear
    requires Clicks(p, cs).store != p.store
    ensures exists i, j :: 0 <= i < j < |cs| && cs[i] == ClearAllProgressButton && cs[j] == YesClearEverything
    decreases |cs|
  {
    var q := OnClick(p, cs[0]);
    assert q.store == p.store;
    if cs[0] == ClearAllProgressButton {
      OpenChangeNeedsConfirm(q, cs[1..]);
      var j :| 0 <= j < |cs[1..]| && cs[1..][j] == YesClearEverything;
      assert cs[0] == ClearAllProgressButton && cs[j + 1] == YesClearEverything;
    } else {
      ClosedChangeNeedsTwoSteps(q, cs[1..]);
      var i, j :| 0 <= i < j < |cs[1..]| && cs[1..][i] == ClearAllProgressButton && cs[1..][j] == YesClearEverything;
      assert cs[i + 1] == ClearAllProgressButton && cs[j + 1] == YesClearEverything;
    }
  }

  /** Opening the confirmation and confirming empties the progress, closes
      the confirmation and leaves every other stored key alone; the page then
      shows zero for every figure. */
  lemma OpenThenConfirmClears(p: Profile)
    requires !p.showConfirmClear
    ensures var r := Clicks(p, [ClearAllProgressButton, YesClearEverything]);
            && !r.showConfirmClear
            && GetAllProgress(r.store) == map[]
            && Shown(r) == Stats(0, 0, 0)
            && forall k :: k != ProgressKey ==> (k in r.store <==> k in p.store) && (k in p.store ==> r.store[k] == p.store[k])
  {
    var q := OnClick(p, ClearAllProgressButton);
    assert [ClearAllProgressButton, YesClearEverything][1..] == [YesClearEverything];
    assert Clicks(p, [ClearAllProgressButton, YesClearEverything]) == Clicks(q, [YesClearEverything]);
    assert Clicks(q, [YesClearEverything]) == OnClick(q, YesClearEverything);
  }

  /** Opening the confirmation and cancelling leaves the page as it was. */
  lemma OpenThenCancelRestores(p: Profile)
    requires !p.showConfirmClear
    ensures Clicks(p, [ClearAllProgressButton, Cancel]) == p
  {
    assert [ClearAllProgressButton, Cancel][1..] == [Cancel];
  }
}

=== FILE: progress_repository.dfy ===
/** `ProgressRepository`: the per-card mastery state machine over the stored
    progress map. Every mutation re-reads the whole map, changes one entry and
    writes the whole map back under one storage key. */
module ProgressRepository {
  import opened Values
  import opened Storage
  import opened ProgressTypes

  const ProgressKey: string := "secplus_progress"

  /** The fixed number of correct answers that promotes a card to mastered. */
  const MasteryThreshold: real := 3.0

  /** `getAllProgress`: the stored map, or the empty map when it is missing,
      unreadable, falsy or rejected by the schema. */
  function GetAllProgress(s: Store): (r: AllProgress)
    ensures AllValid(r)
    ensures GetItem(s, ProgressKey).None? ==> r == map[]
    ensures GetItem(s, ProgressKey).Some? && ParseAllProgress(GetItem(s, ProgressKey).value).None? ==> r == map[]
    ensures var d := GetItem(s, ProgressKey);
            d.Some? && !IsFalsy(d.value) && ParseAllProgress(d.value).Some? ==> r == ParseAllProgress(d.value).value
  {
    var data := GetItem(s, ProgressKey);
    if data.None? || IsFalsy(data.value) then map[]
    else match ParseAllProgress(data.value)
      case Some(m) => ParsedAllValid(data.value); m
      case None => map[]
  }

  /** `getProgress`: the stored record for the card, or None. */
  function GetProgress(s: Store, cardId: string): (r: Option<UserProgress>)
    ensures r.Some? <==> cardId in GetAllProgress(s)
    ensures r.Some? ==> r.value == GetAllProgress(s)[cardId] && Valid(r.value)
  {
    var all := GetAllProgress(s);
    if cardId in all then Some(all[cardId]) else None
  }

  /** The record a mutation starts from: the stored one, or the zero record
      carrying the card id when the card has none. */
  function ProgressOrZero(s: Store, cardId: string): (r: UserProgress)
    ensures Valid(r)
    ensures cardId !in GetAllProgress(s) ==> r == ZeroRecord(cardId)
    ensures cardId in GetAllProgress(s) ==> r == GetAllProgress(s)[cardId]
  {
    GetProgress(s, cardId).GetOr(ZeroRecord(cardId))
  }

  /** `saveProgress`: writes the current map with the card's entry replaced.
      Only the progress key of the store changes. */
  function SaveProgress(s: Store, cardId: string, p: UserProgress): (r: Store)
    ensures forall k :: k != ProgressKey ==> (k in r <==> k in s) && (k in s ==> r[k] == s[k])
    ensures GetItem(r, ProgressKey).Some?
  {
    SetItem(s, ProgressKey, EncodeAllProgress(GetAllProgress(s)[cardId := p]))
  }

  /** What a save reads back: the previous map with one entry replaced, as
      long as the new record is itself valid. */
  lemma SaveReadBack(s: Store, cardId: string, p: UserProgress)
    requires Valid(p)
    ensures GetAllProgress(SaveProgress(s, cardId, p)) == GetAllProgress(s)[cardId := p]
  {
    var m := GetAllProgress(s)[cardId := p];
    AllProgressRoundTrip(m);
  }

  /** Saving a record the schema rejects leaves a store that reads as empty. */
  lemma SaveInvalidReadsEmpty(s: Store, cardId: string, p: UserProgress)
    requires !Valid(p)
    ensures GetAllProgress(SaveProgress(s, cardId, p)) == map[]
  {
    var m := GetAllProgress(s)[cardId := p];
    var j := EncodeAllProgress(m);
    assert cardId in j.fields && j.fields[cardId] == EncodeUserProgress(p);
    EncodedInvalidRejected(p);
  }

  /** `clearAllProgress`: removes the progress key and nothing else. */
  function ClearAllProgress(s: Store): (r: Store)
    ensures GetAllProgress(r) == map[]
    ensures forall k :: k != ProgressKey ==> (k in r <==> k in s) && (k in s ==> r[k] == s[k])
  {
    RemoveItem(s, ProgressKey)
  }

  /** The promotion rule of `updateMasteryStatus`, applied to one record. */
  function Promote(p: UserProgress): (r: UserProgress)
    ensures r.cardId == p.cardId && r.timesCorrect == p.timesCorrect
    ensures r.timesMissed == p.timesMissed && r.lastSeen == p.lastSeen
    ensures r.mastered == (p.mastered || p.timesCorrect >= MasteryThreshold)
    ensures r.needsReview == (p.needsReview && (p.mastered || p.timesCorrect < MasteryThreshold))
    ensures Valid(p) ==> Valid(r)
  {
    if p.timesCorrect >= MasteryThreshold && !p.mastered then p.(mastered := true, needsReview := false)
    else p
  }

  /** `updateMasteryStatus`: does nothing for a card with no record, otherwise
      re-saves the record with the promotion rule applied. */
  function UpdateMasteryStatus(s: Store, cardId: string): (r: Store)
    ensures cardId !in GetAllProgress(s) ==> r == s
    ensures cardId in GetAllProgress(s) ==>
              GetAllProgress(r) == GetAllProgress(s)[cardId := Promote(GetAllProgress(s)[cardId])]
    ensures forall k :: k != ProgressKey ==> (k in r <==> k in s) && (k in s ==> r[k] == s[k])
  {
    match GetProgress(s, cardId)
    case None => s
    case Some(p) =>
      SaveReadBack(s, cardId, Promote(p));
      SaveProgress(s, cardId, Promote(p))
  }

  /** The record `markAsCorrect` saves before the mastery check. */
  function Corrected(p: UserProgress, now: string): UserProgress {
    p.(timesCorrect := p.timesCorrect + 1.0, lastSeen := Some(now), needsReview := false)
  }

  /** The record `markAsMissed` saves. */
  function Missed(p: UserProgress, now: string): UserProgress {
    p.(timesMissed := p.timesMissed + 1.0, lastSeen := Some(now), needsReview := true, mastered := false)
  }

  /** The record `markAsReview` saves. */
  function Reviewed(p: UserProgress, now: string): UserProgress {
    p.(needsReview := true, lastSeen := Some(now))
  }

  /** `markAsCorrect`: one more correct answer, then the mastery check.
      `now` is the timestamp the clock supplies. */
  function MarkAsCorrect(s: Store, cardId: string, now: string): (r: Store)
    ensures forall k :: k != ProgressKey ==> (k in r <==> k in s) && (k in s ==> r[k] == s[k])
    ensures GetItem(r, ProgressKey).Some?
  {
    UpdateMasteryStatus(SaveProgress(s, cardId, Corrected(ProgressOrZero(s, cardId), now)), cardId)
  }

  /** `markAsMissed`: one more miss; the card needs review and loses mastery. */
  function MarkAsMissed(s: Store, cardId: string, now: string): (r: Store)
    ensures forall k :: k != ProgressKey ==> (k in r <==> k in s) && (k in s ==> r[k] == s[k])
    ensures GetItem(r, ProgressKey).Some?
  {
    SaveProgress(s, cardId, Missed(ProgressOrZero(s, cardId), now))
  }

  /** `markAsReview`: flags the card; counters and mastery are untouched. */
  function MarkAsReview(s: Store, cardId: string, now: string): (r: Store)
    ensures forall k :: k != ProgressKey ==> (k in r <==> k in s) && (k in s ==> r[k] == s[k])
    ensures GetItem(r, ProgressKey).Some?
  {
    SaveProgress(s, cardId, Reviewed(ProgressOrZero(s, cardId), now))
  }

  /** Every entry other than `cardId` reads back exactly as before, and no
      entry appears or disappears except `cardId`'s. */
  ghost predicate OthersUnchanged(before: AllProgress, after: AllProgress, cardId: string) {
    && cardId in after
    && forall k :: k != cardId ==> (k in after <==> k in before) && (k in before ==> after[k] == before[k])
  }

  /** `markAsCorrect` raises `timesCorrect` by exactly one, keeps `timesMissed`,
      clears `needsReview`, and leaves the card mastered exactly when it was
      mastered before or has now reached the threshold. */
  lemma MarkAsCorrectEffect(s: Store, cardId: string, now: string)
    requires IsDateTime(now)
    ensures var b := ProgressOrZero(s, cardId);
            var a := GetAllProgress(MarkAsCorrect(s, cardId, now));
            && OthersUnchanged(GetAllProgress(s), a, cardId)
            && a[cardId].cardId == b.cardId
            && a[cardId].timesCorrect == b.timesCorrect + 1.0
            && a[cardId].timesMissed == b.timesMissed
            && a[cardId].lastSeen == Some(now)
            && !a[cardId].needsReview
            && a[cardId].mastered == (b.mastered || b.timesCorrect + 1.0 >= MasteryThreshold)
  {
    var b := ProgressOrZero(s, cardId);
    var s1 := SaveProgress(s, cardId, Corrected(b, now));
    SaveReadBack(s, cardId, Corrected(b, now));
    assert GetAllProgress(s1)[cardId] == Corrected(b, now);
  }

  /** `markAsMissed` raises `timesMissed` by one, sets `needsReview`, clears
      `mastered` whatever the counters say, and keeps `timesCorrect`. */
  lemma MarkAsMissedEffect(s: Store, cardId: string, now: string)
    requires IsDateTime(now)
    ensures var b := ProgressOrZero(s, cardId);
            var a := GetAllProgress(MarkAsMissed(s, cardId, now));
            && OthersUnchanged(GetAllProgress(s), a, cardId)
            && a[cardId].cardId == b.cardId
            && a[cardId].timesCorrect == b.timesCorrect
            && a[cardId].timesMissed == b.timesMissed + 1.0
            && a[cardId].lastSeen == Some(now)
            && a[cardId].needsReview
            && !a[cardId].mastered
  {
    SaveReadBack(s, cardId, Missed(ProgressOrZero(s, cardId), now));
  }

  /** `markAsReview` sets `needsReview` and the timestamp only: a mastered card
      stays mastered, so mastered and needs-review can hold together. */
  lemma MarkAsReviewEffect(s: Store, cardId: string, now: string)
    requires IsDateTime(now)
    ensures var b := ProgressOrZero(s, cardId);
            var a := GetAllProgress(MarkAsReview(s, cardId, now));
            && OthersUnchanged(GetAllProgress(s), a, cardId)
            && a[cardId].cardId == b.cardId
            && a[cardId].timesCorrect == b.timesCorrect
            && a[cardId].timesMissed == b.timesMissed
            && a[cardId].mastered == b.mastered
            && a[cardId].lastSeen == Some(now)
            && a[cardId].needsReview
  {
    SaveReadBack(s, cardId, Reviewed(ProgressOrZero(s, cardId), now));
  }

  /** When the stored map is missing or corrupt, a mutation persists a map
      holding only the touched card. */
  lemma MutationOnCorruptStoreKeepsOnlyCard(s: Store, cardId: string, now: string)
    requires IsDateTime(now)
    requires GetAllProgress(s) == map[]
    ensures GetAllProgress(MarkAsCorrect(s, cardId, now)).Keys == {cardId}
    ensures GetAllProgress(MarkAsMissed(s, cardId, now)).Keys == {cardId}
    ensures GetAllProgress(MarkAsReview(s, cardId, now)).Keys == {cardId}
  {
    MarkAsCorrectEffect(s, cardId, now);
    OnlyTouchedCard(GetAllProgress(s), GetAllProgress(MarkAsCorrect(s, cardId, now)), cardId);
    MarkAsMissedEffect(s, cardId, now);
    OnlyTouchedCard(GetAllProgress(s), GetAllProgress(MarkAsMissed(s, cardId, now)), cardId);
    MarkAsReviewEffect(s, cardId, now);
    OnlyTouchedCard(GetAllProgress(s), GetAllProgress(MarkAsReview(s, cardId, now)), cardId);
  }

  lemma OnlyTouchedCard(before: AllProgress, after: AllProgress, cardId: string)
    requires before == map[] && OthersUnchanged(before, after, cardId)
    ensures after.Keys == {cardId}
  {
  }

  /** With a clock that produced a malformed timestamp the saved map fails
      validation, so the whole progress map reads as empty afterwards. */
  lemma MalformedTimestampLosesProgress(s: Store, cardId: string, now: string)
    requires !IsDateTime(now)
    ensures GetAllProgress(MarkAsMissed(s, cardId, now)) == map[]
    ensures GetAllProgress(MarkAsReview(s, cardId, now)) == map[]
  {
    SaveInvalidReadsEmpty(s, cardId, Missed(ProgressOrZero(s, cardId), now));
    SaveInvalidReadsEmpty(s, cardId, Reviewed(ProgressOrZero(s, cardId), now));
  }

  /** The record after one `markAsCorrect`, in terms of the record before it. */
  lemma CorrectStep(s: Store, cardId: string, now: string, tc: real, tm: real, m: bool)
    requires IsDateTime(now)
    requires var b := ProgressOrZero(s, cardId); b.timesCorrect == tc && b.timesMissed == tm && b.mastered == m
    ensures var a := ProgressOrZero(MarkAsCorrect(s, cardId, now), cardId);
            && a.timesCorrect == tc + 1.0 && a.timesMissed == tm
            && a.mastered == (m || tc + 1.0 >= MasteryThreshold) && !a.needsReview
  {
    MarkAsCorrectEffect(s, cardId, now);
  }

  /** Three correct answers on an untouched card master it. */
  lemma ThreeCorrectMasters(s: Store, cardId: string, t1: string, t2: string, t3: string)
    requires IsDateTime(t1) && IsDateTime(t2) && IsDateTime(t3)
    requires cardId !in GetAllProgress(s)
    ensures var a := ProgressOrZero(MarkAsCorrect(MarkAsCorrect(MarkAsCorrect(s, cardId, t1), cardId, t2), cardId, t3), cardId);
            && a.timesCorrect == 3.0 && a.timesMissed == 0.0
            && a.mastered && !a.needsReview
  {
    var s1 := MarkAsCorrect(s, cardId, t1);
    var s2 := MarkAsCorrect(s1, cardId, t2);
    CorrectStep(s, cardId, t1, 0.0, 0.0, false);
    CorrectStep(s1, cardId, t2, 1.0, 0.0, false);
    CorrectStep(s2, cardId, t3, 2.0, 0.0, false);
  }

  /** Two correct answers then a miss: not mastered, flagged for review. */
  lemma CorrectCorrectMissed(s: Store, cardId: string, t1: string, t2: string, t3: string)
    requires IsDateTime(t1) && IsDateTime(t2) && IsDateTime(t3)
    requires cardId !in GetAllProgress(s)
    ensures var a := ProgressOrZero(MarkAsMissed(MarkAsCorrect(MarkAsCorrect(s, cardId, t1), cardId, t2), cardId, t3), cardId);
            && a.timesCorrect == 2.0 && a.timesMissed == 1.0
            && !a.mastered && a.needsReview
  {
    var s1 := MarkAsCorrect(s, cardId, t1);
    var s2 := MarkAsCorrect(s1, cardId, t2);
    CorrectStep(s, cardId, t1, 0.0, 0.0, false);
    CorrectStep(s1, cardId, t2, 1.0, 0.0, false);
    MissStep(s2, cardId, t3, 2.0, 0.0);
  }

  /** The record after one `markAsMissed`, in terms of the record before it. */
  lemma MissStep(s: Store, cardId: string, now: string, tc: real, tm: real)
    requires IsDateTime(now)
    requires var b := ProgressOrZero(s, cardId); b.timesCorrect == tc && b.timesMissed == tm
    ensures var a := ProgressOrZero(MarkAsMissed(s, cardId, now), cardId);
            && a.timesCorrect == tc && a.timesMissed == tm + 1.0
            && !a.mastered && a.needsReview
  {
    MarkAsMissedEffect(s, cardId, now);
  }

  /** Flagging a mastered card leaves it both mastered and in need of review. */
  lemma ReviewKeepsMastery(s: Store, cardId: string, now: string)
    requires IsDateTime(now)
    requires cardId in GetAllProgress(s) && GetAllProgress(s)[cardId].mastered
    ensures var a := ProgressOrZero(MarkAsReview(s, cardId, now), cardId);
            a.mastered && a.needsReview
  {
    MarkAsReviewEffect(s, cardId, now);
    assert ProgressOrZero(s, cardId).mastered;
  }

  /** A card that was never touched has no record. */
  lemma UnknownCardHasNoRecord(s: Store, cardId: string)
    requires cardId !in GetAllProgress(s)
    ensures GetProgress(s, cardId) == None
    ensures ProgressOrZero(s, cardId) == ZeroRecord(cardId)
  {
  }
}

=== FILE: progress_types.dfy ===
/** The progress record and the validation `UserProgressSchema` and
    `AllProgressSchema` apply to stored progress. */
module ProgressTypes {
  import opened Values

  /** One card's study record. Counters are JSON numbers; `lastSeen` is null or
      an ISO datetime string. */
  datatype UserProgress = UserProgress(
    cardId: string,
    timesCorrect: real,
    timesMissed: real,
    lastSeen: Option<string>,
    mastered: bool,
    needsReview: bool)

  /** Every stored card's record, keyed by card id. The key and the record's
      `cardId` are not required to agree. */
  type AllProgress = map<string, UserProgress>

  predicate IsDigit(c: char) {
    '0' <= c <= '9'
  }

  predicate AllDigits(s: string) {
    forall i :: 0 <= i < |s| ==> IsDigit(s[i])
  }

  /** The shape `z.string().datetime()` accepts by default:
      `YYYY-MM-DDTHH:MM:SS`, optional fractional seconds, then `Z`. */
  predicate IsDateTime(s: string) {
    && |s| >= 20
    && AllDigits(s[0..4]) && s[4] == '-'
    && AllDigits(s[5..7]) && s[7] == '-'
    && AllDigits(s[8..10]) && s[10] == 'T'
    && AllDigits(s[11..13]) && s[13] == ':'
    && AllDigits(s[14..16]) && s[16] == ':'
    && AllDigits(s[17..19])
    && s[|s| - 1] == 'Z'
    && (|s| == 20 || (|s| >= 22 && s[19] == '.' && AllDigits(s[20..|s| - 1])))
  }

  /** What the schema guarantees of a record it returns. */
  predicate Valid(p: UserProgress) {
    && p.timesCorrect >= 0.0
    && p.timesMissed >= 0.0
    && (p.lastSeen.Some? ==> IsDateTime(p.lastSeen.value))
  }

  /** The record created on first interaction with a card. */
  function ZeroRecord(cardId: string): (r: UserProgress)
    ensures Valid(r) && r.cardId == cardId
    ensures r.timesCorrect == 0.0 && r.timesMissed == 0.0 && r.lastSeen == None
    ensures !r.mastered && !r.needsReview
  {
    UserProgress(cardId, 0.0, 0.0, None, false, false)
  }

  /** `z.number().min(0).default(0)`. */
  function ParseCount(f: Option<Json>): (r: Option<real>)
    ensures f.None? ==> r == Some(0.0)
    ensures f.Some? ==> (r.Some? <==> f.value.JNum? && f.value.n >= 0.0)
    ensures r.Some? ==> r.value >= 0.0
    ensures f.Some? && r.Some? ==> f.value == JNum(r.value)
  {
    match f
    case None => Some(0.0)
    case Some(JNum(n)) => if n >= 0.0 then Some(n) else None
    case Some(_) => None
  }

  /** `z.string().datetime().nullable().default(null)`. */
  function ParseLastSeen(f: Option<Json>): (r: Option<Option<string>>)
    ensures f.None? ==> r == Some(None)
    ensures f == Some(JNull) ==> r == Some(None)
    ensures r.Some? && r.value.Some? ==> IsDateTime(r.value.value)
    ensures f.Some? && f.value.JString? ==> (r.Some? <==> IsDateTime(f.value.s))
    ensures r.Some? && r.value.Some? ==> f == Some(JString(r.value.value))
    ensures r == Some(None) <==> f.None? || f == Some(JNull)
    ensures f.Some? && !f.value.JNull? && !f.value.JString? ==> r.None?
  {
    match f
    case None => Some(None)
    case Some(JNull) => Some(None)
    case Some(JString(s)) => if IsDateTime(s) then Some(Some(s)) else None
    case Some(_) => None
  }

  /** `z.boolean().default(false)`. */
  function ParseFlag(f: Option<Json>): (r: Option<bool>)
    ensures f.None? ==> r == Some(false)
    ensures f.Some? ==> (r.Some? <==> f.value.JBool?)
    ensures f.Some? && r.Some? ==> f.value == JBool(r.value)
  {
    match f
    case None => Some(false)
    case Some(JBool(b)) => Some(b)
    case Some(_) => None
  }

  /** `UserProgressSchema.parse`: an object with a string `cardId`; a missing
      field takes its default, a present but ill-typed or out-of-range field
      rejects the whole record, and unknown properties are dropped. */
  function ParseUserProgress(j: Json): (r: Option<UserProgress>)
    ensures r.Some? ==> Valid(r.value)
    ensures r.Some? ==> j.JObject? && "cardId" in j.fields && j.fields["cardId"] == JString(r.value.cardId)
    ensures r.Some? <==> && j.JObject? && "cardId" in j.fields && j.fields["cardId"].JString?
                         && ParseCount(Field(j.fields, "timesCorrect")).Some?
                         && ParseCount(Field(j.fields, "timesMissed")).Some?
                         && ParseLastSeen(Field(j.fields, "lastSeen")).Some?
                         && ParseFlag(Field(j.fields, "mastered")).Some?
                         && ParseFlag(Field(j.fields, "needsReview")).Some?
    ensures r.Some? ==> && Some(r.value.timesCorrect) == ParseCount(Field(j.fields, "timesCorrect"))
                        && Some(r.value.timesMissed) == ParseCount(Field(j.fields, "timesMissed"))
                        && Some(r.value.lastSeen) == ParseLastSeen(Field(j.fields, "lastSeen"))
                        && Some(r.value.mastered) == ParseFlag(Field(j.fields, "mastered"))
                        && Some(r.value.needsReview) == ParseFlag(Field(j.fields, "needsReview"))
  {
    match j
    case JObject(o) =>
      var id := Field(o, "cardId");
      var tc := ParseCount(Field(o, "timesCorrect"));
      var tm := ParseCount(Field(o, "timesMissed"));
      var ls := ParseLastSeen(Field(o, "lastSeen"));
      var ms := ParseFlag(Field(o, "mastered"));
      var nr := ParseFlag(Field(o, "needsReview"));
      if id.Some? && id.value.JString? && tc.Some? && tm.Some? && ls.Some? && ms.Some? && nr.Some?
      then Some(UserProgress(id.value.s, tc.value, tm.value, ls.value, ms.value, nr.value))
      else None
    case _ => None
  }

  /** The object `JSON.stringify` writes for a record: all six fields, `lastSeen` as null when absent. */
  function EncodeUserProgress(p: UserProgress): (r: Json)
    ensures r.JObject? && !IsFalsy(r)
  {
    JObject(map[
      "cardId" := JString(p.cardId),
      "timesCorrect" := JNum(p.timesCorrect),
      "timesMissed" := JNum(p.timesMissed),
      "lastSeen" := (match p.lastSeen case None => JNull case Some(t) => JString(t)),
      "mastered" := JBool(p.mastered),
      "needsReview" := JBool(p.needsReview)])
  }

  /** A valid record survives being written and read back unchanged. */
  lemma UserProgressRoundTrip(p: UserProgress)
    requires Valid(p)
    ensures ParseUserProgress(EncodeUserProgress(p)) == Some(p)
  {
  }

  /** Only valid records encode to something the schema accepts. */
  lemma EncodedInvalidRejected(p: UserProgress)
    requires !Valid(p)
    ensures ParseUserProgress(EncodeUserProgress(p)) == None
  {
  }

  /** A record holding only a card id gets every other field's default. */
  lemma MissingFieldsDefault(cardId: string)
    ensures ParseUserProgress(JObject(map["cardId" := JString(cardId)])) == Some(ZeroRecord(cardId))
  {
  }

  /** `cardId` is required: an object without it is rejected whatever else it holds. */
  lemma MissingCardIdRejected(o: map<string, Json>)
    requires "cardId" !in o
    ensures ParseUserProgress(JObject(o)) == None
  {
  }

  /** A negative counter rejects the record rather than being defaulted. */
  lemma NegativeCountRejected(o: map<string, Json>, n: real)
    requires n < 0.0
    ensures ParseUserProgress(JObject(o["timesCorrect" := JNum(n)])) == None
    ensures ParseUserProgress(JObject(o["timesMissed" := JNum(n)])) == None
  {
  }

  /** `AllProgressSchema.parse`: an object whose every value is a valid
      record; one invalid entry rejects the whole map. */
  function ParseAllProgress(j: Json): (r: Option<AllProgress>)
    ensures r.Some? <==> j.JObject? && forall k :: k in j.fields ==> ParseUserProgress(j.fields[k]).Some?
    ensures r.Some? ==> r.value.Keys == j.fields.Keys
    ensures r.Some? ==> forall k :: k in r.value ==> Some(r.value[k]) == ParseUserProgress(j.fields[k])
  {
    match j
    case JObject(o) =>
      if forall k :: k in o ==> ParseUserProgress(o[k]).Some?
      then Some(map k | k in o :: ParseUserProgress(o[k]).value)
      else None
    case _ => None
  }

  function EncodeAllProgress(m: AllProgress): (r: Json)
    ensures r.JObject? && r.fields.Keys == m.Keys && !IsFalsy(r)
  {
    JObject(map k | k in m :: EncodeUserProgress(m[k]))
  }

  predicate AllValid(m: AllProgress) {
    forall k :: k in m ==> Valid(m[k])
  }

  /** A map of valid records survives being written and read back unchanged. */
  lemma AllProgressRoundTrip(m: AllProgress)
    requires AllValid(m)
    ensures ParseAllProgress(EncodeAllProgress(m)) == Some(m)
  {
    var j := EncodeAllProgress(m);
    forall k | k in j.fields
      ensures ParseUserProgress(j.fields[k]) == Some(m[k])
    {
      EntryRoundTrip(m, k);
    }
    ParseFromEntries(j.fields, m);
  }

  /** An object whose every entry parses to the matching record of `m`
      parses to `m`. */
  lemma ParseFromEntries(o: map<string, Json>, m: AllProgress)
    requires o.Keys == m.Keys
    requires forall k :: k in o ==> ParseUserProgress(o[k]) == Some(m[k])
    ensures ParseAllProgress(JObject(o)) == Some(m)
  {
    var r := ParseAllProgress(JObject(o));
    assert r.Some?;
    forall k | k in m
      ensures r.value[k] == m[k]
    {
      assert Some(r.value[k]) == ParseUserProgress(o[k]);
    }
    assert r.value == m;
  }

  lemma EntryRoundTrip(m: AllProgress, k: string)
    requires AllValid(m) && k in m
    ensures ParseUserProgress(EncodeAllProgress(m).fields[k]) == Some(m[k])
  {
    assert EncodeAllProgress(m).fields[k] == EncodeUserProgress(m[k]);
    UserProgressRoundTrip(m[k]);
  }

  /** Whatever the schema accepts satisfies `Valid` entry by entry. */
  lemma ParsedAllValid(j: Json)
    requires ParseAllProgress(j).Some?
    ensures AllValid(ParseAllProgress(j).value)
  {
  }

  /** A single bad entry rejects the map, however many good ones it holds. */
  lemma OneBadEntryRejectsAll(o: map<string, Json>, key: string, bad: Json)
    requires ParseUserProgress(bad).None?
    ensures ParseAllProgress(JObject(o[key := bad])) == None
  {
    assert key in o[key := bad];
  }

  /** The map key and the stored `cardId` need not agree. */
  lemma KeyNeedNotMatchCardId()
    ensures ParseAllProgress(JObject(map["a" := EncodeUserProgress(ZeroRecord("b"))]))
            == Some(map["a" := ZeroRecord("b")])
  {
    var m := map["a" := ZeroRecord("b")];
    assert EncodeAllProgress(m) == JObject(map["a" := EncodeUserProgress(ZeroRecord("b"))]);
    AllProgressRoundTrip(m);
  }
}

=== FILE: reference_page.dfy ===
/** The reference library: a text search and a domain filter over every card,
    then the matching cards grouped by domain and section. */
module ReferencePage {
  import opened Values
  import opened Seqs
  import opened FlashcardTypes

  /** `toLowerCase` on one character, for the ASCII letters. */
  function LowerChar(c: char): (r: char)
    ensures 'A' <= c <= 'Z' ==> r != c && 'a' <= r <= 'z'
    ensures !('A' <= c <= 'Z') ==> r == c
    ensures !('A' <= r <= 'Z')
  {
    if 'A' <= c <= 'Z' then (c as int - 'A' as int + 'a' as int) as char else c
  }

  function Lower(s: string): (r: string)
    ensures |r| == |s|
    ensures forall i :: 0 <= i < |r| ==> !('A' <= r[i] <= 'Z')
  {
    seq(|s|, i requires 0 <= i < |s| => LowerChar(s[i]))
  }

  /** Lower-casing twice is lower-casing once. */
  lemma LowerIdempotent(s: string)
    ensures Lower(Lower(s)) == Lower(s)
  {
    var l := Lower(s);
    forall i | 0 <= i < |l|
      ensures Lower(l)[i] == l[i]
    {
    }
  }

  /** `text.includes(pat)`: `pat` occurs at the start of `text` or somewhere after. */
  predicate Includes(text: string, pat: string)
    decreases |text|
  {
    || pat <= text
    || (text != [] && Includes(text[1..], pat))
  }

  /** `pat` occurs in `text` starting at position `i`. */
  predicate WindowAt(text: string, pat: string, i: int) {
    0 <= i && i + |pat| <= |text| && text[i..i + |pat|] == pat
  }

  lemma WindowShift(text: string, pat: string, i: int)
    requires text != [] && i >= 1
    ensures WindowAt(text, pat, i) == WindowAt(text[1..], pat, i - 1)
  {
    if i + |pat| <= |text| {
      var a, b := text[i..i + |pat|], text[1..][i - 1..i - 1 + |pat|];
      assert |a| == |b|;
      forall k | 0 <= k < |a|
        ensures a[k] == b[k]
      {
      }
      assert a == b;
    }
  }

  /** `Includes` agrees with the direct definition: some window of `text`
      spells `pat`. */
  lemma {:induction false} IncludesIffWindow(text: string, pat: string)
    ensures Includes(text, pat) <==> exists i :: WindowAt(text, pat, i)
    decreases |text|
  {
    if pat <= text {
      assert WindowAt(text, pat, 0);
    } else if text == [] {
    } else {
      IncludesIffWindow(text[1..], pat);
      if exists i :: WindowAt(text, pat, i) {
        var i :| WindowAt(text, pat, i);
        if i > 0 {
          WindowShift(text, pat, i);
        }
      }
      if exists j :: WindowAt(text[1..], pat, j) {
        var j :| WindowAt(text[1..], pat, j);
        WindowShift(text, pat, j + 1);
      }
    }
  }

  /** Every text includes the empty string, so the page's explicit test for an
      empty query changes nothing. */
  lemma {:induction false} IncludesEmpty(text: string)
    ensures Includes(text, "")
  {
    assert "" <= text;
  }

  /** The search test: an empty query, or the lower-cased query inside the
      lower-cased front, section or first answer tier. */
  predicate MatchesSearch(c: Flashcard, query: string) {
    var q := Lower(query);
    || query == ""
    || Includes(Lower(c.front), q)
    || Includes(Lower(c.section), q)
    || Includes(Lower(c.back.level1), q)
  }

  /** The domain test: no domain selected, or the card's own domain. */
  predicate MatchesDomain(c: Flashcard, selected: Option<real>) {
    selected.None? || c.domain == selected.value
  }

  predicate Matches(c: Flashcard, query: string, selected: Option<real>) {
    MatchesSearch(c, query) && MatchesDomain(c, selected)
  }

  /** `filteredFlashcards`: the matching cards in their loaded order. */
  function FilteredFlashcards(cards: seq<Flashcard>, query: string, selected: Option<real>): (r: seq<Flashcard>)
    ensures IsSubsequence(r, cards)
    ensures forall i :: 0 <= i < |cards| ==> (cards[i] in r <==> Matches(cards[i], query, selected))
    ensures selected.Some? ==> forall i :: 0 <= i < |r| ==> r[i].domain == selected.value
    ensures forall c :: multiset(r)[c] == if Matches(c, query, selected) then multiset(cards)[c] else 0
  {
    FilterIsSubsequence(cards, c => Matches(c, query, selected));
    FilterMembers(cards, c => Matches(c, query, selected));
    FilterMultiplicity(cards, c => Matches(c, query, selected));
    Filter(cards, c => Matches(c, query, selected))
  }

  /** An empty query with "All Domains" shows every card. */
  lemma EmptyQueryAllDomainsKeepsAll(cards: seq<Flashcard>)
    ensures FilteredFlashcards(cards, "", None) == cards
  {
    FilterAll(cards, c => Matches(c, "", None));
  }

  /** An empty query with a domain selected shows exactly that domain's cards. */
  lemma EmptyQueryIsDomainFilter(cards: seq<Flashcard>, d: real)
    ensures FilteredFlashcards(cards, "", Some(d)) == Filter(cards, (c: Flashcard) => c.domain == d)
  {
    FilterCongruent(cards, c => Matches(c, "", Some(d)), (c: Flashcard) => c.domain == d);
  }

  /** The second and third answer tiers are never searched: changing them
      does not change whether a card matches. */
  lemma DeeperTiersNotSearched(c: Flashcard, level2: string, level3: string, query: string, selected: Option<real>)
    ensures Matches(c.(back := c.back.(level2 := level2, level3 := level3)), query, selected)
            == Matches(c, query, selected)
  {
  }

  /** The search ignores the case of the query. */
  lemma SearchIgnoresQueryCase(c: Flashcard, query: string, selected: Option<real>)
    ensures Matches(c, Lower(query), selected) == Matches(c, query, selected)
  {
    LowerIdempotent(query);
    assert Lower(query) == "" <==> query == "";
  }

  /** Grouped cards: domain, then section, then the cards in filter order. */
  type Groups = map<real, map<string, seq<Flashcard>>>

  /** The reduce step: make the domain and section entries if missing, then
      push the card onto its group. */
  function AddToGroup(g: Groups, c: Flashcard): (r: Groups)
    ensures c.domain in r && c.section in r[c.domain]
    ensures forall d :: d in r <==> d in g || d == c.domain
  {
    var inner := if c.domain in g then g[c.domain] else map[];
    var cell := if c.section in inner then inner[c.section] else [];
    g[c.domain := inner[c.section := cell + [c]]]
  }

  /** `filteredFlashcards.reduce(step, {})`, folding from the left. */
  function GroupFrom(acc: Groups, cards: seq<Flashcard>): Groups
    decreases |cards|
  {
    if cards == [] then acc else GroupFrom(AddToGroup(acc, cards[0]), cards[1..])
  }

  function Group(cards: seq<Flashcard>): Groups {
    GroupFrom(map[], cards)
  }

  /** The test for membership of the group at domain `d`, section `s`. */
  function InCell(d: real, s: string): Flashcard -> bool {
    (c: Flashcard) => c.domain == d && c.section == s
  }

  /** `g` is the grouping of `cs`: every card has its group, every group is
      non-empty and holds exactly its cards in order, and no domain is empty. */
  predicate Describes(g: Groups, cs: seq<Flashcard>) {
    && (forall i :: 0 <= i < |cs| ==> cs[i].domain in g && cs[i].section in g[cs[i].domain])
    && (forall d :: d in g ==> g[d] != map[])
    && (forall d, s :: d in g && s in g[d] ==> g[d][s] == Filter(cs, InCell(d, s)) && g[d][s] != [])
  }

  /** A cell no card belongs to filters to nothing. */
  lemma EmptyCell(cs: seq<Flashcard>, d: real, s: string)
    requires forall i :: 0 <= i < |cs| ==> !(cs[i].domain == d && cs[i].section == s)
    ensures Filter(cs, InCell(d, s)) == []
  {
    FilterMembers(cs, InCell(d, s));
  }

  /** One reduce step keeps `Describes`. */
  lemma AddKeepsDescribes(g: Groups, cs: seq<Flashcard>, c: Flashcard)
    requires Describes(g, cs)
    ensures Describes(AddToGroup(g, c), cs + [c])
  {
    var r := AddToGroup(g, c);
    var cs' := cs + [c];
    forall i | 0 <= i < |cs'|
      ensures cs'[i].domain in r && cs'[i].section in r[cs'[i].domain]
    {
      if i < |cs| {
        assert cs'[i] == cs[i];
      }
    }
    forall d, s | d in r && s in r[d]
      ensures r[d][s] == Filter(cs', InCell(d, s)) && r[d][s] != []
    {
      FilterAppend(cs, [c], InCell(d, s));
      assert [c][1..] == [];
      if d == c.domain && s == c.section {
        assert Filter([c], InCell(d, s)) == [c];
        if !(d in g && s in g[d]) {
          EmptyCell(cs, d, s);
        }
      } else {
        assert Filter([c], InCell(d, s)) == [];
      }
    }
  }

  lemma {:induction false} GroupFromDescribes(acc: Groups, done: seq<Flashcard>, rest: seq<Flashcard>)
    requires Describes(acc, done)
    ensures Describes(GroupFrom(acc, rest), done + rest)
    decreases |rest|
  {
    if rest == [] {
      assert done + rest == done;
    } else {
      AddKeepsDescribes(acc, done, rest[0]);
      GroupFromDescribes(AddToGroup(acc, rest[0]), done + [rest[0]], rest[1..]);
      assert done + [rest[0]] + rest[1..] == done + rest;
    }
  }

  /** The grouping holds a group for exactly the (domain, section) pairs some
      card has; each group lists exactly that pair's cards, in input order,
      and is never empty. */
  lemma GroupIsExact(cards: seq<Flashcard>)
    ensures var g := Group(cards);
            && (forall i :: 0 <= i < |cards| ==> cards[i].domain in g && cards[i].section in g[cards[i].domain])
            && (forall d, s :: d in g && s in g[d] ==> g[d][s] == Filter(cards, InCell(d, s)) && g[d][s] != [])
            && (forall d :: d in g ==> g[d] != map[])
  {
    assert Describes(map[], []);
    GroupFromDescribes(map[], [], cards);
    assert [] + cards == cards;
  }

  /** Each card sits in its own group and in no other one. */
  lemma CardInOwnGroupOnly(cards: seq<Flashcard>, i: int, d: real, s: string)
    requires 0 <= i < |cards|
    requires d in Group(cards) && s in Group(cards)[d]
    ensures cards[i] in Group(cards)[d][s] <==> cards[i].domain == d && cards[i].section == s
  {
    GroupIsExact(cards);
    FilterMembers(cards, InCell(d, s));
  }

  /** A group is present exactly when some card has its domain and section. */
  lemma GroupPresentIffCard(cards: seq<Flashcard>, d: real, s: string)
    ensures (d in Group(cards) && s in Group(cards)[d])
            <==> exists i :: 0 <= i < |cards| && cards[i].domain == d && cards[i].section == s
  {
    GroupIsExact(cards);
    var g := Group(cards);
    if d in g && s in g[d] {
      var r := Filter(cards, InCell(d, s));
      FilterMembers(cards, InCell(d, s));
      assert r != [] && InCell(d, s)(r[0]) && r[0] in cards;
    }
  }

  /** The grouping is empty exactly when there are no cards. */
  lemma GroupEmptyIff(cards: seq<Flashcard>)
    ensures Group(cards) == map[] <==> cards == []
  {
    GroupIsExact(cards);
    if cards != [] {
      assert cards[0].domain in Group(cards);
    }
  }

  /** Nothing passes the filters exactly when no card matches. */
  lemma FilteredEmptyIff(cards: seq<Flashcard>, query: string, selected: Option<real>)
    ensures FilteredFlashcards(cards, query, selected) == []
            <==> forall i :: 0 <= i < |cards| ==> !Matches(cards[i], query, selected)
  {
    var r := FilteredFlashcards(cards, query, selected);
    FilterMembers(cards, c => Matches(c, query, selected));
    if r != [] {
      assert r[0] in cards;
    }
  }

  /** What the page shows under the filters: the groups, plus the "No
      flashcards found" message exactly when nothing matches. */
  datatype ReferenceView = ReferenceView(groups: Groups, noneFound: bool)

  function Render(cards: seq<Flashcard>, query: string, selected: Option<real>): (r: ReferenceView)
    ensures r.noneFound <==> forall i :: 0 <= i < |cards| ==> !Matches(cards[i], query, selected)
    ensures r.noneFound <==> r.groups == map[]
  {
    var filtered := FilteredFlashcards(cards, query, selected);
    GroupEmptyIff(filtered);
    FilteredEmptyIff(cards, query, selected);
    ReferenceView(Group(filtered), |filtered| == 0)
  }
}

=== FILE: seqs.dfy ===
/** Order-preserving filtering of sequences (`Array.prototype.filter`) and the
    subsequence relation it establishes. */
module Seqs {

  /** `a` is obtained from `b` by deleting elements, keeping the order. */
  predicate IsSubsequence<T(==)>(a: seq<T>, b: seq<T>)
    decreases |b|
  {
    || a == []
    || (&& b != []
        && ((a[0] == b[0] && IsSubsequence(a[1..], b[1..])) || IsSubsequence(a, b[1..])))
  }

  /** The elements of `s` satisfying `p`, in their original order. */
  function Filter<T>(s: seq<T>, p: T -> bool): (r: seq<T>)
    ensures |r| <= |s|
  {
    if s == [] then []
    else if p(s[0]) then [s[0]] + Filter(s[1..], p)
    else Filter(s[1..], p)
  }

  /** A filter keeps exactly the elements satisfying the predicate, each as
      often as it occurs in the input. */
  lemma {:induction false} FilterMembers<T>(s: seq<T>, p: T -> bool)
    ensures forall i :: 0 <= i < |Filter(s, p)| ==> p(Filter(s, p)[i]) && Filter(s, p)[i] in s
    ensures forall i :: 0 <= i < |s| && p(s[i]) ==> s[i] in Filter(s, p)
    ensures multiset(Filter(s, p)) <= multiset(s)
  {
    if s != [] {
      FilterMembers(s[1..], p);
      assert s == [s[0]] + s[1..];
    }
  }

  /** Each element satisfying the predicate occurs in the filter exactly as
      often as in the input; the others not at all. */
  lemma {:induction false} FilterMultiplicity<T>(s: seq<T>, p: T -> bool)
    ensures forall x :: multiset(Filter(s, p))[x] == if p(x) then multiset(s)[x] else 0
  {
    if s != [] {
      FilterMultiplicity(s[1..], p);
      assert s == [s[0]] + s[1..];
      var rest := Filter(s[1..], p);
      if p(s[0]) {
        assert multiset(Filter(s, p)) == multiset{s[0]} + multiset(rest);
      } else {
        assert multiset(Filter(s, p)) == multiset(rest);
      }
      assert multiset(s) == multiset{s[0]} + multiset(s[1..]);
    }
  }

  /** A filter result is an order-preserving subsequence of its input. */
  lemma {:induction false} FilterIsSubsequence<T>(s: seq<T>, p: T -> bool)
    ensures IsSubsequence(Filter(s, p), s)
  {
    if s == [] {
    } else {
      FilterIsSubsequence(s[1..], p);
      var r := Filter(s[1..], p);
      if p(s[0]) {
        assert Filter(s, p) == [s[0]] + r;
        assert ([s[0]] + r)[1..] == r;
      }
    }
  }

  /** Filtering with a predicate every element meets changes nothing. */
  lemma {:induction false} FilterAll<T>(s: seq<T>, p: T -> bool)
    requires forall i :: 0 <= i < |s| ==> p(s[i])
    ensures Filter(s, p) == s
  {
    if s != [] {
      FilterAll(s[1..], p);
    }
  }

  /** Filtering distributes over concatenation. */
  lemma {:induction false} FilterAppend<T>(a: seq<T>, b: seq<T>, p: T -> bool)
    ensures Filter(a + b, p) == Filter(a, p) + Filter(b, p)
  {
    if a == [] {
      assert a + b == b;
    } else {
      assert (a + b)[0] == a[0];
      assert (a + b)[1..] == a[1..] + b;
      FilterAppend(a[1..], b, p);
    }
  }

  /** Two filters with predicates that agree on every element give the same result. */
  lemma {:induction false} FilterCongruent<T>(s: seq<T>, p: T -> bool, q: T -> bool)
    requires forall i :: 0 <= i < |s| ==> p(s[i]) == q(s[i])
    ensures Filter(s, p) == Filter(s, q)
  {
    if s != [] {
      FilterCongruent(s[1..], p, q);
    }
  }
}

=== FILE: stable_sort.dfy ===
/** A stable sort by an integer key, as `Array.prototype.sort` with a
    consistent comparator `(a, b) => key(a) - key(b)` must behave since
    ECMAScript 2019, and the facts that pin its result down. */
module StableSort {
  import opened Seqs

  /** Keys never decrease along the sequence. */
  predicate Sorted<T>(s: seq<T>, key: T -> int) {
    forall i, j :: 0 <= i < j < |s| ==> key(s[i]) <= key(s[j])
  }

  /** The elements with key `k`, in order. */
  function KeyFilter<T>(s: seq<T>, key: T -> int, k: int): (r: seq<T>)
    ensures |r| <= |s|
  {
    if s == [] then []
    else (if key(s[0]) == k then [s[0]] else []) + KeyFilter(s[1..], key, k)
  }

  /** `KeyFilter` keeps exactly the elements with key `k`. */
  lemma {:induction false} KeyFilterMembers<T>(s: seq<T>, key: T -> int, k: int)
    ensures forall i :: 0 <= i < |KeyFilter(s, key, k)| ==>
              key(KeyFilter(s, key, k)[i]) == k && KeyFilter(s, key, k)[i] in s
    ensures forall i :: 0 <= i < |s| && key(s[i]) == k ==> s[i] in KeyFilter(s, key, k)
  {
    if s != [] {
      KeyFilterMembers(s[1..], key, k);
      assert forall i :: 1 <= i < |s| ==> s[i] == s[1..][i - 1];
    }
  }

  /** `KeyFilter` is `Filter` with the key test. */
  lemma {:induction false} KeyFilterIsFilter<T>(s: seq<T>, key: T -> int, k: int)
    ensures KeyFilter(s, key, k) == Filter(s, x => key(x) == k)
  {
    if s != [] {
      KeyFilterIsFilter(s[1..], key, k);
    }
  }

  /** Inserts `x` before the first element whose key is not smaller. */
  function Insert<T(==)>(x: T, s: seq<T>, key: T -> int): (r: seq<T>)
    ensures multiset(r) == multiset{x} + multiset(s)
    ensures |r| == |s| + 1
    ensures r[0] == x || (s != [] && r[0] == s[0])
    ensures Sorted(s, key) ==> Sorted(r, key)
  {
    if s == [] then [x]
    else if key(x) <= key(s[0]) then [x] + s
    else
      var rest := Insert(x, s[1..], key);
      assert s == [s[0]] + s[1..];
      InsertSortedStep(x, s, rest, key);
      [s[0]] + rest
  }

  /** The recursive case of `Insert` keeps a sorted input sorted: the head
      stays first because both candidates for the next place have a key at
      least as large. */
  lemma InsertSortedStep<T>(x: T, s: seq<T>, rest: seq<T>, key: T -> int)
    requires s != [] && key(s[0]) < key(x)
    requires rest != [] && (rest[0] == x || (|s| > 1 && rest[0] == s[1]))
    requires Sorted(s[1..], key) ==> Sorted(rest, key)
    ensures Sorted(s, key) ==> Sorted([s[0]] + rest, key)
  {
    if Sorted(s, key) {
      assert Sorted(s[1..], key) by {
        forall i, j | 0 <= i < j < |s| - 1
          ensures key(s[1..][i]) <= key(s[1..][j])
        {
          assert s[1..][i] == s[i + 1] && s[1..][j] == s[j + 1];
        }
      }
      if |s| > 1 {
        assert key(s[0]) <= key(s[1]);
      }
      var t := [s[0]] + rest;
      forall i, j | 0 <= i < j < |t|
        ensures key(t[i]) <= key(t[j])
      {
        if i == 0 {
          assert key(rest[0]) <= key(rest[j - 1]);
        } else {
          assert t[i] == rest[i - 1] && t[j] == rest[j - 1];
        }
      }
    }
  }

  /** Insertion sort from the back of the input: stable and ordered by `key`. */
  function Sort<T(==)>(s: seq<T>, key: T -> int): (r: seq<T>)
    ensures multiset(r) == multiset(s)
    ensures Sorted(r, key)
  {
    if s == [] then []
    else
      assert s == [s[0]] + s[1..];
      Insert(s[0], Sort(s[1..], key), key)
  }

  lemma KeyFilterCons<T>(x: T, s: seq<T>, key: T -> int, k: int)
    ensures KeyFilter([x] + s, key, k) == (if key(x) == k then [x] else []) + KeyFilter(s, key, k)
  {
    assert ([x] + s)[0] == x;
    assert ([x] + s)[1..] == s;
  }

  /** The element itself if it has key `k`, else nothing. */
  function Pick<T>(x: T, key: T -> int, k: int): seq<T> {
    if key(x) == k then [x] else []
  }

  /** `KeyFilter` of a five-element sequence, element by element. */
  lemma FilterOfFive<T>(a: T, b: T, c: T, d: T, e: T, key: T -> int, k: int)
    ensures KeyFilter([a, b, c, d, e], key, k)
            == Pick(a, key, k) + (Pick(b, key, k) + (Pick(c, key, k) + (Pick(d, key, k) + Pick(e, key, k))))
  {
    var s0 := [a, b, c, d, e];
    assert s0[1..] == [b, c, d, e];
    assert [b, c, d, e][1..] == [c, d, e];
    assert [c, d, e][1..] == [d, e];
    assert [d, e][1..] == [e];
    assert [e][1..] == [];
    KeyFilterFront(s0, key, k);
    KeyFilterFront([b, c, d, e], key, k);
    KeyFilterFront([c, d, e], key, k);
    KeyFilterFront([d, e], key, k);
    KeyFilterFront([e], key, k);
    assert Pick(e, key, k) + KeyFilter([], key, k) == Pick(e, key, k);
  }

  lemma KeyFilterFront<T>(s: seq<T>, key: T -> int, k: int)
    requires s != []
    ensures KeyFilter(s, key, k) == Pick(s[0], key, k) + KeyFilter(s[1..], key, k)
  {
  }

  /** Inserting keeps the relative order of equal-key elements and puts `x`
      before the ones already there. */
  lemma {:induction false} InsertStable<T>(x: T, s: seq<T>, key: T -> int, k: int)
    ensures KeyFilter(Insert(x, s, key), key, k) == (if key(x) == k then [x] else []) + KeyFilter(s, key, k)
  {
    if s == [] {
      KeyFilterCons(x, [], key, k);
    } else if key(x) <= key(s[0]) {
      KeyFilterCons(x, s, key, k);
    } else {
      var rest := Insert(x, s[1..], key);
      InsertStable(x, s[1..], key, k);
      PassOver(s[0], x, rest, s[1..], key, k);
      assert Insert(x, s, key) == [s[0]] + rest;
      assert s == [s[0]] + s[1..];
    }
  }

  /** Moving `x` past an element with a smaller key does not change the
      order within any key. */
  lemma PassOver<T>(h: T, x: T, rest: seq<T>, tail: seq<T>, key: T -> int, k: int)
    requires key(h) < key(x)
    requires KeyFilter(rest, key, k) == (if key(x) == k then [x] else []) + KeyFilter(tail, key, k)
    ensures KeyFilter([h] + rest, key, k) == (if key(x) == k then [x] else []) + KeyFilter([h] + tail, key, k)
  {
    KeyFilterCons(h, rest, key, k);
    KeyFilterCons(h, tail, key, k);
  }

  /** Elements with the same key keep their input order. */
  lemma {:induction false} SortStable<T>(s: seq<T>, key: T -> int, k: int)
    ensures KeyFilter(Sort(s, key), key, k) == KeyFilter(s, key, k)
  {
    if s != [] {
      SortStable(s[1..], key, k);
      InsertStable(s[0], Sort(s[1..], key), key, k);
      KeyFilterCons(s[0], s[1..], key, k);
      assert s == [s[0]] + s[1..];
    }
  }

  /** The head of a sorted sequence has the smallest key of any element. */
  lemma HeadHasLeastKey<T>(r: seq<T>, key: T -> int, x: T)
    requires Sorted(r, key) && r != [] && x in r
    ensures key(r[0]) <= key(x)
  {
    var j :| 0 <= j < |r| && r[j] == x;
    if j > 0 {
      assert key(r[0]) <= key(r[j]);
    }
  }

  /** Two orders that are both sorted by key and agree on the order within
      every key are the same order. */
  lemma {:induction false} SortedStableUnique<T>(r1: seq<T>, r2: seq<T>, key: T -> int)
    requires Sorted(r1, key) && Sorted(r2, key)
    requires forall k :: KeyFilter(r1, key, k) == KeyFilter(r2, key, k)
    ensures r1 == r2
    decreases |r1| + |r2|
  {
    if r1 == [] || r2 == [] {
      EmptyAgreesOnlyWithEmpty(r1, r2, key);
    } else {
      assert KeyFilter(r1, key, key(r1[0])) == KeyFilter(r2, key, key(r1[0]));
      assert KeyFilter(r1, key, key(r2[0])) == KeyFilter(r2, key, key(r2[0]));
      SameHead(r1, r2, key);
      forall k
        ensures KeyFilter(r1[1..], key, k) == KeyFilter(r2[1..], key, k)
      {
        TailsAgree(r1, r2, key, k);
      }
      SortedTail(r1, key);
      SortedTail(r2, key);
      SortedStableUnique(r1[1..], r2[1..], key);
    }
  }

  lemma EmptyAgreesOnlyWithEmpty<T>(r1: seq<T>, r2: seq<T>, key: T -> int)
    requires r1 == [] || r2 == []
    requires forall k :: KeyFilter(r1, key, k) == KeyFilter(r2, key, k)
    ensures r1 == r2
  {
    if r1 != [] {
      HeadInOwnFilter(r1, key);
      assert false;
    } else if r2 != [] {
      HeadInOwnFilter(r2, key);
      assert false;
    }
  }

  lemma HeadInOwnFilter<T>(r: seq<T>, key: T -> int)
    requires r != []
    ensures KeyFilter(r, key, key(r[0])) != []
  {
  }

  lemma SortedTail<T>(r: seq<T>, key: T -> int)
    requires Sorted(r, key) && r != []
    ensures Sorted(r[1..], key)
  {
    forall i, j | 0 <= i < j < |r| - 1
      ensures key(r[1..][i]) <= key(r[1..][j])
    {
      assert r[1..][i] == r[i + 1] && r[1..][j] == r[j + 1];
    }
  }

  lemma TailsAgree<T>(r1: seq<T>, r2: seq<T>, key: T -> int, k: int)
    requires r1 != [] && r2 != [] && r1[0] == r2[0]
    requires KeyFilter(r1, key, k) == KeyFilter(r2, key, k)
    ensures KeyFilter(r1[1..], key, k) == KeyFilter(r2[1..], key, k)
  {
    KeyFilterCons(r1[0], r1[1..], key, k);
    KeyFilterCons(r2[0], r2[1..], key, k);
    assert r1 == [r1[0]] + r1[1..];
    assert r2 == [r2[0]] + r2[1..];
    var h := if key(r1[0]) == k then [r1[0]] else [];
    assert h + KeyFilter(r1[1..], key, k) == h + KeyFilter(r2[1..], key, k);
    assert KeyFilter(r1[1..], key, k) == (h + KeyFilter(r1[1..], key, k))[|h|..];
    assert KeyFilter(r2[1..], key, k) == (h + KeyFilter(r2[1..], key, k))[|h|..];
  }

  /** Sorted sequences that agree within every key start with the same element. */
  lemma SameHead<T>(r1: seq<T>, r2: seq<T>, key: T -> int)
    requires Sorted(r1, key) && Sorted(r2, key) && r1 != [] && r2 != []
    requires KeyFilter(r1, key, key(r1[0])) == KeyFilter(r2, key, key(r1[0]))
    requires KeyFilter(r1, key, key(r2[0])) == KeyFilter(r2, key, key(r2[0]))
    ensures r1[0] == r2[0]
  {
    var k1, k2 := key(r1[0]), key(r2[0]);
    assert r1 == [r1[0]] + r1[1..];
    assert r2 == [r2[0]] + r2[1..];
    KeyFilterCons(r1[0], r1[1..], key, k1);
    KeyFilterCons(r2[0], r2[1..], key, k2);
    KeyFilterMembers(r1, key, k2);
    KeyFilterMembers(r2, key, k1);
    assert r1[0] in KeyFilter(r2, key, k1);
    HeadHasLeastKey(r2, key, r1[0]);
    assert r2[0] in KeyFilter(r1, key, k2);
    HeadHasLeastKey(r1, key, r2[0]);
    assert k1 == k2;
    assert KeyFilter(r1, key, k1)[0] == r1[0];
    assert KeyFilter(r2, key, k1)[0] == r2[0];
  }

  /** The result of a stable sort is the one order that is sorted by key and
      keeps equal-key elements in input order; it is a permutation of the input. */
  lemma SortIsTheStableOrder<T>(s: seq<T>, r: seq<T>, key: T -> int)
    requires Sorted(r, key)
    requires forall k :: KeyFilter(r, key, k) == KeyFilter(s, key, k)
    ensures r == Sort(s, key)
    ensures multiset(r) == multiset(s)
  {
    forall k
      ensures KeyFilter(r, key, k) == KeyFilter(Sort(s, key), key, k)
    {
      SortStable(s, key, k);
    }
    SortedStableUnique(r, Sort(s, key), key);
  }
}

=== FILE: storage.dfy ===
/** The browser key/value store behind `LocalStorageUtil`, holding values that
    have already been through `JSON.stringify`/`JSON.parse`. A slot whose text
    does not parse is `Unreadable`; reading it behaves like reading a missing key. */
module Storage {
  import opened Values

  datatype Slot = Decoded(value: Json) | Unreadable

  type Store = map<string, Slot>

  /** `getItem`: the decoded value, or None when the key is missing or its text is corrupt. */
  function GetItem(s: Store, key: string): (r: Option<Json>)
    ensures r.Some? <==> key in s && s[key].Decoded?
    ensures r.Some? ==> s[key] == Decoded(r.value)
  {
    if key in s && s[key].Decoded? then Some(s[key].value) else None
  }

  /** `setItem`: stores the value under `key`; every other key keeps its slot. */
  function SetItem(s: Store, key: string, v: Json): (r: Store)
    ensures GetItem(r, key) == Some(v)
    ensures forall k :: k in s && k != key ==> k in r && r[k] == s[k]
    ensures forall k :: k in r && k != key ==> k in s
  {
    s[key := Decoded(v)]
  }

  /** `removeItem`: the key reads as missing afterwards; every other key keeps its slot. */
  function RemoveItem(s: Store, key: string): (r: Store)
    ensures GetItem(r, key) == None
    ensures forall k :: k in s && k != key ==> k in r && r[k] == s[k]
    ensures forall k :: k in r ==> k in s && k != key
  {
    s - {key}
  }
}

=== FILE: study_all.dfy ===
/** The "all domains" study view: the loaded cards reordered by the fixed
    domain priority 4, 5, 2, 3, 1 with a stable sort. */
module StudyAll {
  import opened FlashcardTypes
  import opened StableSort

  const PriorityOrder: seq<real> := [4.0, 5.0, 2.0, 3.0, 1.0]

  /** `Array.prototype.indexOf`: the first position holding `x`, or -1. */
  function IndexOf(s: seq<real>, x: real): (r: int)
    ensures -1 <= r < |s|
    ensures r >= 0 ==> s[r] == x && forall j :: 0 <= j < r ==> s[j] != x
    ensures r == -1 <==> x !in s
  {
    if s == [] then -1
    else if s[0] == x then 0
    else var k := IndexOf(s[1..], x); if k == -1 then -1 else k + 1
  }

  /** A card's sort key: its domain's place in the priority list. A domain
      outside the list (a fractional one, say) gets -1 and so sorts first. */
  function Priority(c: Flashcard): int {
    if c.domain == 4.0 then 0
    else if c.domain == 5.0 then 1
    else if c.domain == 2.0 then 2
    else if c.domain == 3.0 then 3
    else if c.domain == 1.0 then 4
    else -1
  }

  /** The key is exactly `priorityOrder.indexOf(card.domain)`. */
  lemma {:induction false} PriorityIsIndexOf(c: Flashcard)
    ensures Priority(c) == IndexOf(PriorityOrder, c.domain)
  {
    assert PriorityOrder[1..] == [5.0, 2.0, 3.0, 1.0];
    assert PriorityOrder[1..][1..] == [2.0, 3.0, 1.0];
    assert PriorityOrder[1..][1..][1..] == [3.0, 1.0];
    assert PriorityOrder[1..][1..][1..][1..] == [1.0];
    assert PriorityOrder[1..][1..][1..][1..][1..] == [];
  }

  /** `[...flashcards].sort((a, b) => indexOf(a.domain) - indexOf(b.domain))`:
      a new list (the input is left as it was), a permutation of the input,
      ordered by priority, with cards of equal priority in input order. */
  function SortByPriority(cards: seq<Flashcard>): (r: seq<Flashcard>)
    ensures multiset(r) == multiset(cards)
    ensures forall i, j :: 0 <= i < j < |r| ==> Priority(r[i]) <= Priority(r[j])
    ensures forall k :: KeyFilter(r, Priority, k) == KeyFilter(cards, Priority, k)
  {
    var r := Sort(cards, Priority);
    forall k
      ensures KeyFilter(r, Priority, k) == KeyFilter(cards, Priority, k)
    {
      SortStable(cards, Priority, k);
    }
    r
  }

  /** One card from each domain 1..5 comes out as 4, 5, 2, 3, 1. */
  lemma FiveDomainsScenario(c1: Flashcard, c2: Flashcard, c3: Flashcard, c4: Flashcard, c5: Flashcard)
    requires c1.domain == 1.0 && c2.domain == 2.0 && c3.domain == 3.0 && c4.domain == 4.0 && c5.domain == 5.0
    ensures SortByPriority([c1, c2, c3, c4, c5]) == [c4, c5, c2, c3, c1]
  {
    assert Priority(c1) == 4 && Priority(c2) == 2 && Priority(c3) == 3 && Priority(c4) == 0 && Priority(c5) == 1;
    var r := [c4, c5, c2, c3, c1];
    assert Sorted(r, Priority);
    forall k
      ensures KeyFilter(r, Priority, k) == KeyFilter([c1, c2, c3, c4, c5], Priority, k)
    {
      FilterOfFive(c4, c5, c2, c3, c1, Priority, k);
      FilterOfFive(c1, c2, c3, c4, c5, Priority, k);
      if k == 0 {
      } else if k == 1 {
      } else if k == 2 {
      } else if k == 3 {
      } else if k == 4 {
      } else {
      }
    }
    SortIsTheStableOrder([c1, c2, c3, c4, c5], r, Priority);
  }

  /** What the page shows once loading has finished. */
  datatype AllPageView = NoFlashcardsAvailable | StudyCards(cards: seq<Flashcard>)

  /** The page: the "No flashcards available" message for an empty list,
      otherwise a viewer over the sorted cards, which is then never empty. */
  function StudyAllView(loaded: seq<Flashcard>): (r: AllPageView)
    ensures r == NoFlashcardsAvailable <==> loaded == []
    ensures r.StudyCards? ==> |r.cards| >= 1 && r.cards == SortByPriority(loaded)
  {
    var sorted := SortByPriority(loaded);
    if |sorted| == 0 then NoFlashcardsAvailable else StudyCards(sorted)
  }
}

=== FILE: study_flagged.dfy ===
/** The "flagged" study view: the loaded cards whose progress record asks for
    review, and the page that shows them. */
module StudyFlagged {
  import opened Values
  import opened Seqs
  import opened Storage
  import opened ProgressTypes
  import opened ProgressRepository
  import opened FlashcardTypes

  /** `allProgress[card.id]?.needsReview || false`. */
  predicate IsFlagged(progress: AllProgress, c: Flashcard) {
    c.id in progress && progress[c.id].needsReview
  }

  /** The cards to review, in load order: a card stays exactly when it has a
      record and that record is flagged; a card with no record is dropped. */
  function FlaggedCards(cards: seq<Flashcard>, progress: AllProgress): (r: seq<Flashcard>)
    ensures IsSubsequence(r, cards)
    ensures forall i :: 0 <= i < |r| ==> r[i] in cards && r[i].id in progress && progress[r[i].id].needsReview
    ensures forall i :: 0 <= i < |cards| ==> (cards[i] in r <==> IsFlagged(progress, cards[i]))
    ensures forall i :: 0 <= i < |cards| && cards[i].id !in progress ==> cards[i] !in r
    ensures forall c :: multiset(r)[c] == if IsFlagged(progress, c) then multiset(cards)[c] else 0
  {
    var r := Filter(cards, c => IsFlagged(progress, c));
    FilterIsSubsequence(cards, c => IsFlagged(progress, c));
    FilterMembers(cards, c => IsFlagged(progress, c));
    FilterMultiplicity(cards, c => IsFlagged(progress, c));
    r
  }

  /** Flagging a loaded card with `R` puts it on this page. */
  lemma FlagThenListed(cards: seq<Flashcard>, s: Store, c: Flashcard, now: string)
    requires IsDateTime(now) && c in cards
    ensures c in FlaggedCards(cards, GetAllProgress(MarkAsReview(s, c.id, now)))
  {
    MarkAsReviewEffect(s, c.id, now);
    var i :| 0 <= i < |cards| && cards[i] == c;
    assert IsFlagged(GetAllProgress(MarkAsReview(s, c.id, now)), cards[i]);
  }

  /** Answering a card correctly takes it off this page. */
  lemma CorrectThenUnlisted(cards: seq<Flashcard>, s: Store, c: Flashcard, now: string)
    requires IsDateTime(now)
    ensures c !in FlaggedCards(cards, GetAllProgress(MarkAsCorrect(s, c.id, now)))
  {
    MarkAsCorrectEffect(s, c.id, now);
  }

  /** Missing a card puts it on this page (a miss flags the card). */
  lemma MissThenListed(cards: seq<Flashcard>, s: Store, c: Flashcard, now: string)
    requires IsDateTime(now) && c in cards
    ensures c in FlaggedCards(cards, GetAllProgress(MarkAsMissed(s, c.id, now)))
  {
    MarkAsMissedEffect(s, c.id, now);
    var i :| 0 <= i < |cards| && cards[i] == c;
    assert IsFlagged(GetAllProgress(MarkAsMissed(s, c.id, now)), cards[i]);
  }

  /** With no stored progress nothing is flagged. */
  lemma NoProgressNothingFlagged(cards: seq<Flashcard>)
    ensures FlaggedCards(cards, map[]) == []
  {
  }

  /** What the page shows once loading has finished. */
  datatype FlaggedPageView = NoFlaggedCards | StudyFlaggedCards(cards: seq<Flashcard>)

  /** The page: the "No Flagged Cards" view when nothing is flagged, otherwise
      a viewer over the flagged cards, which then holds at least one card. */
  function FlaggedView(loaded: seq<Flashcard>, progress: AllProgress): (r: FlaggedPageView)
    ensures r == NoFlaggedCards <==> forall i :: 0 <= i < |loaded| ==> !IsFlagged(progress, loaded[i])
    ensures r.StudyFlaggedCards? ==> |r.cards| >= 1 && r.cards == FlaggedCards(loaded, progress)
  {
    var flagged := FlaggedCards(loaded, progress);
    if |flagged| == 0 then NoFlaggedCards
    else
      assert flagged[0] in loaded;
      StudyFlaggedCards(flagged)
  }
}

=== FILE: values.dfy ===
/** Decoded JSON values, as `JSON.parse` hands them to the schema validators,
    and the optional-value wrapper used throughout the model. */
module Values {

  /** The conventional Some/None datatype, standing in for `null`/`undefined`. */
  datatype Option<+T> = None | Some(value: T) {
    function GetOr(default: T): T {
      match this
      case Some(v) => v
      case None => default
    }
  }

  /** A decoded JSON value. JSON numbers are modelled as reals: the schemas
      bound them (`min`, `max`) but never require them to be integers. */
  datatype Json =
    | JNull
    | JBool(b: bool)
    | JNum(n: real)
    | JString(s: string)
    | JArray(items: seq<Json>)
    | JObject(fields: map<string, Json>)

  /** JavaScript truthiness of a decoded value (`!data`): null, false, 0 and ""
      are falsy; arrays and objects are always truthy. */
  predicate IsFalsy(j: Json) {
    match j
    case JNull => true
    case JBool(b) => !b
    case JNum(n) => n == 0.0
    case JString(s) => s == ""
    case JArray(_) => false
    case JObject(_) => false
  }

  /** The property `name` of an object, or None when it is missing. */
  function Field(fields: map<string, Json>, name: string): (r: Option<Json>)
    ensures r.Some? <==> name in fields
    ensures r.Some? ==> r.value == fields[name]
  {
    if name in fields then Some(fields[name]) else None
  }

  /** `z.array(z.string())`: every item must be a string. */
  function ParseStrings(items: seq<Json>): (r: Option<seq<string>>)
    ensures r.Some? <==> forall i :: 0 <= i < |items| ==> items[i].JString?
    ensures r.Some? ==> |r.value| == |items|
                        && forall i :: 0 <= i < |items| ==> r.value[i] == items[i].s
  {
    if items == [] then Some([])
    else if !items[0].JString? then None
    else match ParseStrings(items[1..])
      case None => None
      case Some(rest) => Some([items[0].s] + rest)
  }

  function EncodeStrings(ss: seq<string>): (r: seq<Json>)
    ensures |r| == |ss|
    ensures forall i :: 0 <= i < |ss| ==> r[i] == JString(ss[i])
  {
    seq(|ss|, i requires 0 <= i < |ss| => JString(ss[i]))
  }

  /** Decoding an encoded list of strings gives the list back. */
  lemma StringsRoundTrip(ss: seq<string>)
    ensures ParseStrings(EncodeStrings(ss)) == Some(ss)
  {
    var r := ParseStrings(EncodeStrings(ss));
    assert r.Some?;
    assert r.value == ss;
  }
}
